=== FILE: README.md ===
# Project access service — a Dafny model

This project models the core of a small Express service. The service keeps
a registry of projects, each `allowed` or `blocked`. It also keeps a table
of users, who authenticate with a bcrypt-hashed password and then carry a
24-hour JWT. Admins create, block and unblock projects. Anyone may ask
`/check-access` whether a project is allowed. As the route table intends
it, the first check of an unknown project that gives a `name` registers it,
with the query's `status` or `allowed` by default; as written, every check
is refused with 400 (see "## Findings").

The model is pure and functional:

- Each MySQL table is an immutable map from the AUTO_INCREMENT id to a row,
  plus the next id to hand out (`Tables`, `ProjectModel`, `UserModel`).
  `Valid` states the table constraints: ids below `nextId`, and a UNIQUE
  `project_id` or `email`.
- Each model function takes a table and returns the new table, its result,
  or a `StoreError` where the write would throw (duplicate key, or a
  missing required value).
- Each controller (`AuthController`, `ProjectController`) and middleware
  (`AuthMiddleware`) is a function from the table and request fields to the
  new table and the HTTP response: status code plus JSON body (`Http`).
  `Coherent` ties the body's `success` flag to a 200/201 status.
- `jsonwebtoken` and `bcrypt` are out of reach, so they are function-valued
  fields of a `Runtime` (`Crypto`). The lemmas assume only named laws about
  them:
  - tokens are compact (non-empty, no spaces);
  - the empty token never verifies;
  - a token verifies, with the signed payload, under the signing secret
    until it expires;
  - it fails under any other secret;
  - `compare(p, hash(p, salt))` holds.
- `ReferenceCrypto` builds a concrete runtime satisfying every law, so the
  assumptions are consistent.
- `Routes` wires the two routers into one table: the guards (none, token,
  or token + admin) in front of each handler, over a database holding both
  tables.

Time (`now`), the bcrypt salt and `process.env.JWT_SECRET` (the `secretEnv`
field of `Runtime`) are parameters.

## Model

| member | source | states |
|---|---|---|
| JsString.Split | src/middleware/auth.middleware.ts:25 | `split(' ')` never returns an empty list; no part contains the separator; there is more than one part iff the separator occurs; the first part is a prefix followed by the separator |
| JsString.JoinOfSplit | src/middleware/auth.middleware.ts:25 | joining the parts of a split with the separator gives back the original string |
| JsString.SplitOfJoin | src/middleware/auth.middleware.ts:25 | splitting a join of separator-free parts gives back exactly those parts |
| JsString.SplitAfterPlainPrefix | src/middleware/auth.middleware.ts:25 | a prefix free of the separator becomes the start of the first part |
| Common.WithDefault | src/controllers/project.controller.ts:16 | a destructuring default applies exactly when the key is absent; a present value, even `""`, is kept |
| Crypto.Runtime.Secret | src/middleware/auth.middleware.ts:4 | the JWT secret is the environment value when it is non-empty, `default_jwt_secret_key` otherwise, and never empty |
| ReferenceCrypto.ReferenceIsLawful | src/controllers/auth.controller.ts:36 | a concrete signer/verifier and hasher satisfy every law the proofs assume, for any environment |
| Tables.Scan | src/models/project.model.ts:13 | a table scan yields every row, only rows of the table, in increasing id order |
| Tables.SortDesc | src/models/project.model.ts:13 | `ORDER BY ... DESC` yields a permutation of its input, sorted non-increasing |
| ProjectModel.Empty | src/models/database.ts:32-40 | a freshly created `projects` table is empty and satisfies its constraints |
| ProjectModel.GetAllProjects | src/models/project.model.ts:11-19 | every project exactly once, each as stored, newest `created_at` first |
| ProjectModel.GetProjectById | src/models/project.model.ts:21-29 | found iff a row has that id, and then it is that row |
| ProjectModel.GetProjectByProjectId | src/models/project.model.ts:31-39 | `null` iff no row carries the `project_id`; otherwise the unique row that does |
| ProjectModel.CreateProject | src/models/project.model.ts:41-52 | the insert fails iff `name` is absent or the `project_id` is taken; otherwise exactly one row is added under a fresh positive id, holding the given fields, and every other row is unchanged |
| ProjectModel.UpdateProject | src/models/project.model.ts:54-76 | a patch with no writable key returns `false` without a query; a `project_id` already held by another row makes the UPDATE fail; otherwise the result is `true` iff the id exists, and that row alone gets the patched fields |
| ProjectModel.PatchedKeepsIdentity | src/models/project.model.ts:56-58 | a patch never changes `id` or `created_at`, and sets exactly the columns it names |
| ProjectModel.SetProjectStatus | src/models/project.model.ts:78-89 | `true` iff the `project_id` is registered; that row alone gets the new status, and the constraints still hold |
| ProjectModel.DeleteProject | src/models/project.model.ts:91-98 | `true` iff the id existed; exactly that row is removed |
| UserModel.Empty | src/models/database.ts:21-29 | a freshly created `users` table is empty and satisfies its constraints |
| UserModel.GetUserByEmail | src/models/user.model.ts:12-20 | `null` iff no user has the email; otherwise the unique user who does |
| UserModel.GetUserById | src/models/user.model.ts:22-30 | found iff a row has that id, and then it is that row |
| UserModel.CreateUser | src/models/user.model.ts:32-48 | fails iff the email is taken; otherwise exactly one row is added, storing `bcrypt.hash(password, salt)` in the password column and the given role |
| UserModel.ValidateUser | src/models/user.model.ts:50-63 | a user is returned only if the email matches a stored row and bcrypt accepts the password against its hash; an unknown email or rejected password gives `null` |
| UserModel.CreatedUserValidates | src/models/user.model.ts:32-63 | a freshly created user validates with the password it was created with |
| UserModel.GetAllUsers | src/models/user.model.ts:65-73 | every user once, as stored, with the password column dropped |
| UserModel.UpdateUserPassword | src/models/user.model.ts:75-88 | `true` iff the id exists; only that row changes, and only to the hash of the new password |
| AuthMiddleware.BearerTokenOfCompact | src/middleware/auth.middleware.ts:19-25 | for a header `"Bearer " + t`, with `t` free of spaces, the extracted token is `t` |
| AuthMiddleware.BearerToken | src/middleware/auth.middleware.ts:25 | the token is the text after `"Bearer "` up to the next space: a prefix of the rest, free of spaces, and followed by a space unless it runs to the end |
| AuthMiddleware.TokenIsSecondField | src/middleware/auth.middleware.ts:25 | for any space-free `t`, the header `"Bearer " + t + " " + rest` yields `t`: whatever follows a further space is dropped |
| AuthMiddleware.BareSchemeGivesEmptyToken | src/middleware/auth.middleware.ts:19-25 | a header of exactly `"Bearer "` passes the prefix test and yields the empty token |
| AuthMiddleware.Authenticate | src/middleware/auth.middleware.ts:14-38 | a missing header, or one not starting with `Bearer `, gives 401 "No token provided"; a verification failure gives 401 "Invalid or expired token"; otherwise the request user is exactly what `jwt.verify` decoded |
| AuthMiddleware.FreshTokenAuthenticates | src/middleware/auth.middleware.ts:25-31 | a token signed with the configured secret passes until its expiry, and the request user is the signed payload |
| AuthMiddleware.ExpiredTokenRejected | src/middleware/auth.middleware.ts:28-36 | from its `exp` on, the same token is refused with 401 |
| AuthMiddleware.ForeignTokenRejected | src/middleware/auth.middleware.ts:28-36 | a token signed under any other secret is refused with 401 |
| AuthMiddleware.EmptyBearerIsInvalidToken | src/middleware/auth.middleware.ts:19-36 | `"Bearer "` alone passes the prefix test and fails verification: "Invalid or expired token", not "No token provided" |
| AuthMiddleware.RequireAdmin | src/middleware/auth.middleware.ts:40-60 | no request user gives 401; a role other than exactly `admin` gives 403; otherwise the same user passes on |
| AuthController.Login | src/controllers/auth.controller.ts:8-52 | missing credentials give 400; 401 iff no stored user accepts the password; otherwise 200 with the stored user's id, email and role, and a token issued for exactly them |
| AuthController.Register | src/controllers/auth.controller.ts:54-100 | missing credentials give 400 and a taken email 409, both without writing; otherwise one user is stored with the hashed password and the requested role (default `user`), and 201 carries a token for the new id |
| AuthController.GetProfile | src/controllers/auth.controller.ts:102-134 | without a request user the handler throws (500); a falsy `userId` gives 401; an unknown id 404; otherwise 200 with the stored user minus the password |
| AuthController.RegisterThenLogin | src/controllers/auth.controller.ts:8-100 | after a successful register, login with the same credentials succeeds for the same user |
| AuthController.RegisteredTokenAuthenticates | src/controllers/auth.controller.ts:74-92 | the token register returns authenticates as the registered id, email and role for 24 hours |
| AuthController.LoginTokenAuthenticates | src/controllers/auth.controller.ts:27-36 | the token a successful login returns authenticates as the session's user for 24 hours |
| AuthController.SelfRegisteredAdminPasses | src/controllers/auth.controller.ts:56 | register grants any requested role: a self-registered `admin` passes the admin guard |
| AuthController.RegisteredProfile | src/controllers/auth.controller.ts:102-125 | the profile behind a fresh register token is the registered user |
| ProjectController.GetAllProjects | src/controllers/project.controller.ts:4-12 | 200 with every project once, as stored, newest first |
| ProjectController.CreateProject | src/controllers/project.controller.ts:14-43 | missing `project_id` or `name` gives 400 and a taken one 409, both without writing; otherwise exactly one project is added, with status `allowed` unless given, and 201 returns it |
| ProjectController.BlockProject | src/controllers/project.controller.ts:45-74 | 400 without `project_id`; 404 iff it is unregistered; otherwise 200, and every row with that `project_id` is `blocked` while nothing else changes; no failure writes |
| ProjectController.UnblockProject | src/controllers/project.controller.ts:76-105 | as blocking, with status `allowed` |
| ProjectController.Verdict | src/controllers/project.controller.ts:133-139 | allowed iff the stored status is exactly `allowed`, with the matching message |
| ProjectController.CheckAccess | src/controllers/project.controller.ts:107-143 | a missing `projectId` gives 400; a known project is answered from its stored status without writing; an unknown one is inserted with the given status (default `allowed`), or 500 without a name; a 200 answer is allowed iff the project's status is `allowed` |
| ProjectController.FirstCheckRegistersAllowed | src/controllers/project.controller.ts:118-131 | the first check of an unknown project inserts it once as `allowed` and grants access |
| ProjectController.CheckAccessIsIdempotent | src/controllers/project.controller.ts:107-143 | whatever the first check answered (200, 400 or 500), a repeated check with the same fields writes nothing and answers the same |
| ProjectController.KnownProjectIgnoresQueryStatus | src/controllers/project.controller.ts:109-131 | for a registered project, the query's `status` has no effect on the answer |
| ProjectController.BlockThenCheckDenies | src/controllers/project.controller.ts:45-143 | blocking a registered project makes the next access check deny it |
| ProjectController.UnblockThenCheckGrants | src/controllers/project.controller.ts:76-143 | unblocking makes the next access check grant it |
| ProjectController.BlockIsIdempotent | src/controllers/project.controller.ts:45-74 | blocking a blocked project succeeds again and leaves the table as it was |
| Routes.RunAuth | src/routes/auth.routes.ts:7-12 | the auth handlers keep the users table valid; only a successful register writes |
| Routes.RunProjects | src/routes/project.routes.ts:8-14 | the project handlers keep the projects table valid; listing and every failure write nothing |
| Routes.Run | src/index.ts:23-24 | auth routes never touch the projects table, project routes never touch the users table, and no failure writes |
| Routes.Handle | src/routes/project.routes.ts:8-14 | an open route runs its handler with no user; on a guarded route a failing token check answers 401 with nothing written, and a verifying token runs the handler with exactly the decoded claims; on an admin route a non-admin gets 403, an admin reaches the handler, and the handler runs only for an authenticated admin |
| Routes.Dispatch | src/controllers/project.controller.ts:109 | as written, `/check-access` always answers 400 with nothing written; every other route behaves as intended |
| Routes.DispatchIntended | src/routes/project.routes.ts:8 | reading the query string, a check with a `projectId` and a name answers 200, allowed iff the project is `allowed` |
| Routes.CheckAccessAlwaysRejected | src/controllers/project.controller.ts:109-114 | as written, a check that names a project still gets 400 "Project ID is required" |
| Routes.FirstCheckGrantsWhenReadFromQuery | src/controllers/project.controller.ts:107-143 | read from the query string, the first check of a new project registers it as `allowed` and grants access |
| Routes.AuthenticatedPasses | src/routes/auth.routes.ts:12 | a `/profile` request whose token verifies reaches `getProfile` with exactly the decoded claims and answers its response |
| Routes.AdminPasses | src/middleware/auth.middleware.ts:14-60 | a request whose token authenticates as an admin reaches the handler of any admin route with that user |
| Routes.AdminRegistration | src/controllers/auth.controller.ts:54-100 | registering a new `admin` answers 201, and its token authenticates as an admin within 24 hours |
| Routes.AdminManagesProject | src/controllers/project.controller.ts:4-143 | with an admin token: listing 200; blocking an unknown project 404; creating it 201; blocking it 200; the access check then denies it |
| Routes.AdminScenario | src/routes/project.routes.ts:8-14 | register an admin, list, block-missing, create, block, check: 201, 200, 404, 201, 200, denied; as written the final check is 400 |

## Left out

- Database I/O, the connection pool and `async` scheduling: each request is one atomic step over an immutable table, so races between requests are not modelled.
- Any failure of the database or of the libraries other than a duplicate key or a missing `name` (lost connection, bcrypt errors): these reach the handlers' 500 branch, which is modelled only where a constraint triggers it.
- Console logging.
- `dotenv`, CORS, the JSON body parser, the server bootstrap, the `/health` route and the seeding in `src/models/database.ts`: they are start-up and transport, not request logic. The environment enters only as `Runtime.secretEnv`.
- The column types: `ENUM` status and role values are stored verbatim, and `VARCHAR(255)` lengths are not enforced. Emails and project ids compare exactly, ignoring the case-insensitive MySQL collation.
- JSON values other than strings in a request body or query: every field is a string, so a number `project_id` or a boolean is not modelled.
- ProjectModel.UpdateProject: a key present in the patch with the value `undefined` is treated as absent and the update returns a result; in the source that key passes the filter, the driver refuses the `undefined` bind value and `updateProject` rethrows the error.
- ProjectModel.GetAllProjects: rows with equal `created_at` come out in one fixed order, where MySQL leaves their order unspecified.
- UserModel.GetAllUsers: rows come out in id order; the query has no `ORDER BY`, so MySQL promises no order.
- The bcrypt cost factor 10 and salt generation: the salt is a parameter, and hashing is the `Bcrypt.hash` field.
- The JWT wire format (base64url header, payload and HMAC signature): tokens are opaque strings under the laws in `Crypto`. So the model cannot state that a token with one changed byte is rejected, only that a token signed under another secret is.
- AuthMiddleware.ForeignTokenRejected: the law it rests on (`BindsSecret`) says no other secret verifies a token, which is stronger than HMAC-SHA256 promises: HMAC zero-pads short keys, so a secret and the same secret followed by `"\u0000"` sign identical tokens.
- `expiresIn: '24h'` is modelled as `exp = iat + 86400` in whole seconds, with `now` a parameter.
- `affectedRows` counts matched rows, because the mysql2 client opens its connections with the `FOUND_ROWS` flag, so re-blocking a blocked project reports success; a connection opened without `FOUND_ROWS` would count only changed rows and answer "Failed to block project" instead.
- Tables.KeysBelow: states which keys it lists and their order, but not that the count equals the size of the map.

## Findings

| source | as written | input that shows it | evidently intended | confidence | as-written member | corrected member |
|---|---|---|---|---|---|---|
| src/controllers/project.controller.ts:109 | `checkAccess` destructures `projectId`, `name` and `status` from `req.params`, but the route `/check-access` (src/routes/project.routes.ts:8) declares no path parameters, so `req.params` is always `{}` | `GET /api/check-access?projectId=p1&name=P1` answers 400 "Project ID is required" | read the fields from `req.query`, as clients send them | not executed | Routes.CheckAccessAlwaysRejected | Routes.FirstCheckGrantsWhenReadFromQuery |

=== FILE: auth_controller.dfy ===
/** `login`, `register` and `getProfile`: credential checks against the user
    table and issuance of the session token `{ userId, email, role }`. */
module AuthController {
  import opened Common
  import opened Crypto
  import opened Http
  import opened Tables
  import opened UserModel
  import AuthMiddleware

  const DefaultRole := "user"

  const MissingCredentialsMessage := "Email and password are required"
  const InvalidCredentialsMessage := "Invalid email or password"
  const EmailTakenMessage := "Email already in use"
  const UnauthorizedMessage := "Unauthorized"
  const UserNotFoundMessage := "User not found"

  /** `jwt.sign(payload, JWT_SECRET, { expiresIn: '24h' })` at second `now`. */
  function Issue(rt: Runtime, p: Payload, now: nat): string {
    rt.jwt.sign(p, rt.Secret(), ExpiresIn, now)
  }

  /** Both credentials present and non-empty. */
  predicate HasCredentials(body: Fields) {
    Truthy(Field(body, "email")) && Truthy(Field(body, "password"))
  }

  /** No user with this email accepts this password: either there is no such
      user or the password does not match the stored hash. */
  ghost predicate Rejects(users: UserTable, bcrypt: Bcrypt, email: string, password: string) {
    forall k :: k in users.rows && users.rows[k].email == email ==> !bcrypt.compare(password, users.rows[k].password)
  }

  /** `login`: missing credentials give 400 before the store is read; an
      unknown email and a wrong password give the same 401; otherwise 200
      with a token for `{ userId, email, role }` of the stored user and that
      user without its password. */
  function Login(users: UserTable, rt: Runtime, body: Fields, now: nat): (r: Response)
    requires Valid(users)
    ensures Coherent(r)
    ensures !HasCredentials(body) ==> r == Fail(BadRequest, MissingCredentialsMessage)
    ensures HasCredentials(body) ==>
              (r == Fail(Unauthorized, InvalidCredentialsMessage)
               <==> Rejects(users, rt.bcrypt, body["email"], body["password"]))
    ensures HasCredentials(body) && !Rejects(users, rt.bcrypt, body["email"], body["password"]) ==>
              && r.status == OK && r.body.Session?
              && var u := r.body.user;
              && u.id in users.rows
              && users.rows[u.id].email == body["email"] == u.email
              && users.rows[u.id].role == u.role
              && rt.bcrypt.compare(body["password"], users.rows[u.id].password)
              && r.body.token == Issue(rt, Payload(u.id, u.email, u.role), now)
  {
    var email := Field(body, "email");
    var password := Field(body, "password");
    if !Truthy(email) || !Truthy(password) then
      Fail(BadRequest, MissingCredentialsMessage)
    else
      match ValidateUser(users, rt.bcrypt, email.value, password.value)
      case None => Fail(Unauthorized, InvalidCredentialsMessage)
      case Some(user) =>
        var token := Issue(rt, Payload(user.id, user.email, user.role), now);
        Response(OK, Session(token, UserSummary(user.id, user.email, user.role)))
  }

  /** `register`: missing credentials give 400, a taken email 409, and both
      leave the table alone; otherwise one user is stored with the hashed
      password and the requested role (default `"user"`, any other string
      passed through, `"admin"` included) and 201 carries a token whose
      `userId` is the new row's id. */
  function Register(users: UserTable, rt: Runtime, body: Fields, salt: string, now: nat)
    : (r: Handled<UserTable>)
    requires Valid(users)
    ensures Coherent(r.response) && Valid(r.store)
    ensures r.response.status != Created ==> r.store == users
    ensures !HasCredentials(body) ==> r.response == Fail(BadRequest, MissingCredentialsMessage)
    ensures HasCredentials(body) ==>
              (r.response == Fail(Conflict, EmailTakenMessage) <==> !Unregistered(users, body["email"]))
    ensures HasCredentials(body) && Unregistered(users, body["email"]) ==>
              && r.response.status == Created && r.response.body.Session?
              && var id := r.response.body.user.id;
              && var role := WithDefault(Field(body, "role"), DefaultRole);
              && id !in users.rows
              && r.store.rows == users.rows[id := User(id, body["email"], rt.bcrypt.hash(body["password"], salt), role, now)]
              && r.response.body.user == UserSummary(id, body["email"], role)
              && r.response.body.token == Issue(rt, Payload(id, body["email"], role), now)
  {
    var email := Field(body, "email");
    var password := Field(body, "password");
    var role := WithDefault(Field(body, "role"), DefaultRole);
    if !Truthy(email) || !Truthy(password) then
      Handled(users, Fail(BadRequest, MissingCredentialsMessage))
    else if GetUserByEmail(users, email.value).Some? then
      Handled(users, Fail(Conflict, EmailTakenMessage))
    else
      match CreateUser(users, NewUser(email.value, password.value, role), rt.bcrypt, salt, now)
      case Err(_) => Handled(users, Fail(InternalError, InternalErrorMessage))
      case Ok(ins) =>
        assert ins.table.rows == users.rows[ins.id := ins.table.rows[ins.id]];
        var token := Issue(rt, Payload(ins.id, email.value, role), now);
        Handled(ins.table, Response(Created, Session(token, UserSummary(ins.id, email.value, role))))
  }

  /** `getProfile`: with no request user, reading `user.userId` throws and the
      handler answers 500; a falsy `userId` gives 401; an id with no row 404;
      otherwise 200 with that row without its password. */
  function GetProfile(users: UserTable, user: Option<Claims>): (r: Response)
    requires Valid(users)
    ensures Coherent(r)
    ensures user.None? ==> r == Fail(InternalError, InternalErrorMessage)
    ensures user.Some? && user.value.payload.userId == 0 ==> r == Fail(Unauthorized, UnauthorizedMessage)
    ensures user.Some? && user.value.payload.userId != 0 ==>
              (r == Fail(NotFound, UserNotFoundMessage) <==> user.value.payload.userId !in users.rows)
    ensures user.Some? && user.value.payload.userId != 0 && user.value.payload.userId in users.rows ==>
              r == Response(OK, Profile(Public(users.rows[user.value.payload.userId])))
    ensures r.status == OK ==>
              user.Some? && user.value.payload.userId in users.rows
              && r.body == Profile(Public(users.rows[user.value.payload.userId]))
  {
    match user
    case None => Fail(InternalError, InternalErrorMessage)
    case Some(claims) =>
      var userId := claims.payload.userId;
      if userId == 0 then Fail(Unauthorized, UnauthorizedMessage)
      else
        match GetUserById(users, userId)
        case None => Fail(NotFound, UserNotFoundMessage)
        case Some(u) => Response(OK, Profile(Public(u)))
  }

  /** The credentials a client sends to `login` or `register`. */
  function Credentials(email: string, password: string): Fields {
    map["email" := email, "password" := password]
  }

  /** After a successful `register`, `login` with the same email and password
      succeeds, for the same user, role and email. */
  lemma RegisterThenLogin(users: UserTable, rt: Runtime, body: Fields, salt: string, now: nat, later: nat)
    requires Valid(users) && HashLaws(rt.bcrypt)
    requires Register(users, rt, body, salt, now).response.status == Created
    ensures var reg := Register(users, rt, body, salt, now);
            var login := Login(reg.store, rt, Credentials(body["email"], body["password"]), later);
            && login.status == OK
            && login.body == Session(Issue(rt, AsPayload(reg.response.body.user), later), reg.response.body.user)
  {
    var reg := Register(users, rt, body, salt, now);
    var creds := Credentials(body["email"], body["password"]);
    assert HasCredentials(body);
    var id := reg.response.body.user.id;
    assert reg.store.rows[id].email == body["email"];
    assert rt.bcrypt.compare(body["password"], reg.store.rows[id].password);
    assert creds["email"] == body["email"] && creds["password"] == body["password"];
    assert !Rejects(reg.store, rt.bcrypt, creds["email"], creds["password"]);
  }

  /** The token `login` returns opens every guarded route for 24 hours, as
      exactly the user the session names. */
  lemma LoginTokenAuthenticates(users: UserTable, rt: Runtime, body: Fields, now: nat, later: nat)
    requires Valid(users) && JwtLaws(rt.jwt)
    requires Login(users, rt, body, now).status == OK
    requires later < now + ExpiresIn
    ensures var s := Login(users, rt, body, now).body;
            && s.Session?
            && AuthMiddleware.Authenticate(rt, Some(AuthMiddleware.BearerHeader(s.token)), later)
               == AuthMiddleware.Next(Claims(AsPayload(s.user), now, now + ExpiresIn))
  {
    var s := Login(users, rt, body, now).body;
    assert HasCredentials(body);
    AuthMiddleware.FreshTokenAuthenticates(rt, AsPayload(s.user), now, later);
  }

  /** The claims a session's user object stands for. */
  function AsPayload(u: UserSummary): Payload {
    Payload(u.id, u.email, u.role)
  }

  /** The token `register` returns opens every guarded route for 24 hours,
      as exactly the registered id, email and role. */
  lemma RegisteredTokenAuthenticates(users: UserTable, rt: Runtime, body: Fields, salt: string, now: nat, later: nat)
    requires Valid(users) && JwtLaws(rt.jwt)
    requires Register(users, rt, body, salt, now).response.status == Created
    requires later < now + ExpiresIn
    ensures var s := Register(users, rt, body, salt, now).response.body;
            AuthMiddleware.Authenticate(rt, Some(AuthMiddleware.BearerHeader(s.token)), later)
            == AuthMiddleware.Next(Claims(AsPayload(s.user), now, now + ExpiresIn))
  {
    var s := Register(users, rt, body, salt, now).response.body;
    AuthMiddleware.FreshTokenAuthenticates(rt, AsPayload(s.user), now, later);
  }

  /** `register` grants whatever role the caller asks for: a self-registered
      `"admin"` passes the admin guard with the token it gets back. */
  lemma SelfRegisteredAdminPasses(users: UserTable, rt: Runtime, email: string, password: string, salt: string, now: nat)
    requires Valid(users) && JwtLaws(rt.jwt)
    requires email != "" && password != "" && Unregistered(users, email)
    ensures var s := Register(users, rt, map["email" := email, "password" := password, "role" := "admin"], salt, now).response.body;
            && s.Session?
            && AuthMiddleware.Authenticate(rt, Some(AuthMiddleware.BearerHeader(s.token)), now).Next?
            && AuthMiddleware.RequireAdmin(Some(AuthMiddleware.Authenticate(rt, Some(AuthMiddleware.BearerHeader(s.token)), now).user)).Next?
  {
    var body := map["email" := email, "password" := password, "role" := "admin"];
    assert HasCredentials(body);
    assert body["email"] == email;
    assert Field(body, "role") == Some("admin");
    RegisteredTokenAuthenticates(users, rt, body, salt, now, now);
  }

  /** The profile behind a freshly registered token is the registered user. */
  lemma RegisteredProfile(users: UserTable, rt: Runtime, body: Fields, salt: string, now: nat, later: nat)
    requires Valid(users) && JwtLaws(rt.jwt)
    requires Register(users, rt, body, salt, now).response.status == Created
    requires later < now + ExpiresIn
    ensures var reg := Register(users, rt, body, salt, now);
            var gate := AuthMiddleware.Authenticate(rt, Some(AuthMiddleware.BearerHeader(reg.response.body.token)), later);
            && gate.Next?
            && GetProfile(reg.store, Some(gate.user)) == Response(OK, Profile(Public(reg.store.rows[reg.response.body.user.id])))
  {
    var reg := Register(users, rt, body, salt, now);
    RegisteredTokenAuthenticates(users, rt, body, salt, now, later);
    assert reg.response.body.user.id > 0;
  }
}

=== FILE: auth_middleware.dfy ===
/** `authMiddleware` and `adminMiddleware`: the two guards in front of the
    protected routes. Each either calls `next` with the request user or halts
    the request with a response of its own. */
module AuthMiddleware {
  import opened Common
  import opened JsString
  import opened Crypto
  import opened Http

  const Scheme := "Bearer "
  const AdminRole := "admin"

  const NoTokenMessage := "No token provided"
  const BadTokenMessage := "Invalid or expired token"
  const NotAuthenticatedMessage := "Not authenticated"
  const AdminRequiredMessage := "Access denied. Admin role required."

  /** `next()` with the user attached to the request, or a response and no
      call to `next`. */
  datatype Gate = Next(user: Claims) | Halt(response: Response)

  /** `authHeader.split(' ')[1]` for a header that starts with the scheme:
      the text after `"Bearer "` up to the next space, possibly empty. */
  function BearerToken(header: string): (token: string)
    requires StartsWith(header, Scheme)
    ensures token <= header[|Scheme|..]
    ensures ' ' !in token
    ensures |token| < |header| - |Scheme| ==> header[|Scheme| + |token|] == ' '
  {
    var rest := header[|Scheme|..];
    assert header == "Bearer" + ([' '] + rest);
    SplitAfterPlainPrefix("Bearer", [' '] + rest, ' ');
    assert ([' '] + rest)[1..] == rest;
    Split(header, ' ')[1]
  }

  /** A token with no space in it comes back out of its header whole. */
  lemma BearerTokenOfCompact(token: string)
    requires ' ' !in token
    ensures StartsWith(Scheme + token, Scheme)
    ensures BearerToken(Scheme + token) == token
  {
    var header := Scheme + token;
    assert header[..|Scheme|] == Scheme;
    assert header[|Scheme|..] == token;
  }

  /** The token is the second space-separated field: after `"Bearer "`,
      everything from the next space on is dropped. */
  lemma TokenIsSecondField(token: string, rest: string)
    requires ' ' !in token
    ensures StartsWith(Scheme + token + " " + rest, Scheme)
    ensures BearerToken(Scheme + token + " " + rest) == token
  {
    var header := Scheme + token + " " + rest;
    assert header[..|Scheme|] == Scheme;
    var after := header[|Scheme|..];
    assert after == token + " " + rest;
    var r := BearerToken(header);
    assert r <= after;
    assert after[|token|] == ' ';
    assert forall i :: 0 <= i < |token| ==> header[|Scheme| + i] == token[i] != ' ';
    assert |r| == |token|;
    assert r == after[..|r|] == token;
  }

  /** The scheme with nothing after it yields the empty token. */
  lemma BareSchemeGivesEmptyToken()
    ensures StartsWith("Bearer ", Scheme) && BearerToken("Bearer ") == ""
  {
    var parts := ["Bearer", ""];
    assert Join(parts[1..], ' ') == "";
    assert Join(parts, ' ') == "Bearer ";
    SplitOfJoin(parts, ' ');
    assert "Bearer "[..|Scheme|] == Scheme;
  }

  /** `authMiddleware`: a header that is missing or does not start with
      exactly `"Bearer "` halts with 401 "No token provided"; otherwise the
      extracted token goes to `jwt.verify` under the configured secret, whose
      every failure halts with the one 401 "Invalid or expired token", and
      whose decoded claims become the request user. */
  function Authenticate(rt: Runtime, header: Option<string>, now: nat): (g: Gate)
    ensures g.Halt? ==> g.response.status == Unauthorized && Coherent(g.response)
    ensures g == Halt(Fail(Unauthorized, NoTokenMessage))
            <==> header.None? || !StartsWith(header.value, Scheme)
    ensures g == Halt(Fail(Unauthorized, BadTokenMessage))
            <==> header.Some? && StartsWith(header.value, Scheme)
                 && rt.jwt.verify(BearerToken(header.value), rt.Secret(), now).None?
    ensures g.Next? ==> header.Some? && StartsWith(header.value, Scheme)
                        && rt.jwt.verify(BearerToken(header.value), rt.Secret(), now) == Some(g.user)
    ensures header.Some? && StartsWith(header.value, Scheme)
            && rt.jwt.verify(BearerToken(header.value), rt.Secret(), now).Some? ==>
              g == Next(rt.jwt.verify(BearerToken(header.value), rt.Secret(), now).value)
  {
    if header.None? || !StartsWith(header.value, Scheme) then
      Halt(Fail(Unauthorized, NoTokenMessage))
    else
      match rt.jwt.verify(BearerToken(header.value), rt.Secret(), now)
      case None => Halt(Fail(Unauthorized, BadTokenMessage))
      case Some(claims) => Next(claims)
  }

  /** The header `"Bearer " + token`, as a client sends it. */
  function BearerHeader(token: string): string {
    Scheme + token
  }

  /** A token signed with the configured secret for `expiresIn` passes until
      it expires, and the request user is exactly the signed payload. */
  lemma FreshTokenAuthenticates(rt: Runtime, p: Payload, iat: nat, now: nat)
    requires JwtLaws(rt.jwt)
    requires now < iat + ExpiresIn
    ensures Authenticate(rt, Some(BearerHeader(rt.jwt.sign(p, rt.Secret(), ExpiresIn, iat))), now)
            == Next(Claims(p, iat, iat + ExpiresIn))
  {
    var token := rt.jwt.sign(p, rt.Secret(), ExpiresIn, iat);
    assert Compact(token);
    BearerTokenOfCompact(token);
  }

  /** Once `exp` is reached the same token is refused, with the generic message. */
  lemma ExpiredTokenRejected(rt: Runtime, p: Payload, iat: nat, now: nat)
    requires JwtLaws(rt.jwt)
    requires iat + ExpiresIn <= now
    ensures Authenticate(rt, Some(BearerHeader(rt.jwt.sign(p, rt.Secret(), ExpiresIn, iat))), now)
            == Halt(Fail(Unauthorized, BadTokenMessage))
  {
    var token := rt.jwt.sign(p, rt.Secret(), ExpiresIn, iat);
    assert Compact(token);
    BearerTokenOfCompact(token);
  }

  /** A token signed under any other secret is refused, with the same message. */
  lemma ForeignTokenRejected(rt: Runtime, p: Payload, secret: string, ttl: nat, iat: nat, now: nat)
    requires JwtLaws(rt.jwt)
    requires secret != rt.Secret()
    ensures Authenticate(rt, Some(BearerHeader(rt.jwt.sign(p, secret, ttl, iat))), now)
            == Halt(Fail(Unauthorized, BadTokenMessage))
  {
    var token := rt.jwt.sign(p, secret, ttl, iat);
    assert Compact(token);
    BearerTokenOfCompact(token);
  }

  /** `"Bearer "` with nothing after it is not "No token provided": the empty
      token reaches `jwt.verify` and fails there. */
  lemma EmptyBearerIsInvalidToken(rt: Runtime, now: nat)
    requires JwtLaws(rt.jwt)
    ensures Authenticate(rt, Some("Bearer "), now) == Halt(Fail(Unauthorized, BadTokenMessage))
  {
    BareSchemeGivesEmptyToken();
  }

  /** `adminMiddleware`: no request user halts with 401 "Not authenticated";
      a user whose role is not exactly `"admin"` halts with 403; otherwise
      `next` runs with the same user. */
  function RequireAdmin(user: Option<Claims>): (g: Gate)
    ensures g.Halt? ==> Coherent(g.response)
    ensures user.None? ==> g == Halt(Fail(Unauthorized, NotAuthenticatedMessage))
    ensures user.Some? ==> (g.Next? <==> user.value.payload.role == AdminRole)
    ensures user.Some? && g.Halt? ==> g == Halt(Fail(Forbidden, AdminRequiredMessage))
    ensures g.Next? ==> user == Some(g.user)
  {
    match user
    case None => Halt(Fail(Unauthorized, NotAuthenticatedMessage))
    case Some(claims) =>
      if claims.payload.role != AdminRole then Halt(Fail(Forbidden, AdminRequiredMessage))
      else Next(claims)
  }

  /** An illustration of RequireAdmin's exact-equality clause: roles that
      merely contain, or differ in case from, `"admin"` are refused. */
  lemma AdminRoleIsExact(c: Claims)
    requires c.payload.role in {"superadmin", "Admin", "admin ", "administrator"}
    ensures RequireAdmin(Some(c)) == Halt(Fail(Forbidden, AdminRequiredMessage))
  {
  }
}

=== FILE: common.dfy ===
/** Vocabulary shared by every module: optional values and the two JavaScript
    conventions the handlers rely on when they read a request field. */
module Common {

  /** A value that may be absent: `undefined` or `null` on the JavaScript side. */
  datatype Option<+T> = None | Some(value: T)

  /** JavaScript truthiness of a string field: `undefined` and `""` are falsy,
      every other string is truthy. This is the test behind `if (!field)`. */
  predicate Truthy(v: Option<string>) {
    v.Some? && v.value != ""
  }

  /** The default of a destructuring pattern `{ field = d }`: it replaces an
      absent field only, so a present `""` is kept as it is. */
  function WithDefault(v: Option<string>, d: string): (s: string)
    ensures v.Some? ==> s == v.value
    ensures v.None? ==> s == d
  {
    match v
    case Some(x) => x
    case None => d
  }
}

=== FILE: crypto.dfy ===
/** The two foreign libraries the handlers call, `jsonwebtoken` and `bcrypt`,
    as functions this model does not implement. What the handlers rely on
    is stated as laws (`JwtLaws`, `HashLaws`) that the lemmas take as
    hypotheses; `ReferenceCrypto` shows the laws can all hold at once. */
module Crypto {
  import opened Common

  /** The claims the handlers sign: `{ userId, email, role }`. */
  datatype Payload = Payload(userId: nat, email: string, role: string)

  /** What `jwt.verify` hands back: the signed payload plus the registered
      `iat` and `exp` claims, in seconds. */
  datatype Claims = Claims(payload: Payload, iat: nat, exp: nat)

  /** `jwt.sign(payload, secret, { expiresIn })` issued at second `iat`, and
      `jwt.verify(token, secret)` checked at second `now`. A failing verify
      (bad signature, malformed, expired) is `None`: the handlers catch every
      such error alike. */
  datatype Jwt = Jwt(
    sign: (Payload, string, nat, nat) -> string,
    verify: (string, string, nat) -> Option<Claims>)

  /** `bcrypt.hash(password, rounds)` with the random salt made a parameter,
      and `bcrypt.compare(password, hash)`. */
  datatype Bcrypt = Bcrypt(
    hash: (string, string) -> string,
    compare: (string, string) -> bool)

  /** `expiresIn: '24h'`, in seconds. */
  const ExpiresIn: nat := 24 * 60 * 60

  /** The fallback when `JWT_SECRET` is unset or empty. */
  const DefaultSecret := "default_jwt_secret_key"

  /** A JWT in compact serialization: base64url segments joined by dots,
      so never empty and never containing a space. */
  predicate Compact(token: string) {
    token != "" && ' ' !in token
  }

  /** Signed tokens are compact. */
  ghost predicate SignsCompact(j: Jwt) {
    forall p: Payload, s: string, ttl: nat, iat: nat :: Compact(j.sign(p, s, ttl, iat))
  }

  /** An empty token never verifies (jsonwebtoken: "jwt must be provided"). */
  ghost predicate RejectsEmpty(j: Jwt) {
    forall s: string, now: nat :: j.verify("", s, now) == None
  }

  /** A token verifies under the secret it was signed with, yielding exactly
      the signed payload with `exp = iat + expiresIn`, until `exp`:
      jsonwebtoken rejects once `now >= exp`. */
  ghost predicate RoundTrips(j: Jwt) {
    forall p: Payload, s: string, ttl: nat, iat: nat, now: nat ::
      j.verify(j.sign(p, s, ttl, iat), s, now)
      == if now < iat + ttl then Some(Claims(p, iat, iat + ttl)) else None
  }

  /** A token never verifies under a secret other than its own. This is an
      idealisation: HMAC zero-pads keys shorter than its block, so secrets
      that differ only by trailing NUL characters sign the same tokens. */
  ghost predicate BindsSecret(j: Jwt) {
    forall p: Payload, s: string, s': string, ttl: nat, iat: nat, now: nat ::
      s' != s ==> j.verify(j.sign(p, s, ttl, iat), s', now) == None
  }

  /** Everything the model assumes of `jsonwebtoken`. */
  ghost predicate JwtLaws(j: Jwt) {
    SignsCompact(j) && RejectsEmpty(j) && RoundTrips(j) && BindsSecret(j)
  }

  /** What the model assumes of `bcrypt`: a password matches its own hash,
      whatever the salt. */
  ghost predicate HashLaws(b: Bcrypt) {
    forall password, salt :: b.compare(password, b.hash(password, salt))
  }

  /** The libraries and the `JWT_SECRET` environment variable, as the process
      sees them. */
  datatype Runtime = Runtime(jwt: Jwt, bcrypt: Bcrypt, secretEnv: Option<string>) {

    /** `process.env.JWT_SECRET || 'default_jwt_secret_key'`. The source
        writes this expression twice, once where tokens are signed and once
        where they are verified; the model evaluates it in one place, so both
        sides use the same secret by construction. */
    function Secret(): (s: string)
      ensures s != ""
      ensures Truthy(secretEnv) ==> s == secretEnv.value
      ensures !Truthy(secretEnv) ==> s == DefaultSecret
    {
      if Truthy(secretEnv) then secretEnv.value else DefaultSecret
    }
  }

  /** Both libraries behave as assumed. */
  ghost predicate Lawful(rt: Runtime) {
    JwtLaws(rt.jwt) && HashLaws(rt.bcrypt)
  }
}

=== FILE: http.dfy ===
/** Requests and responses as the handlers see them: a JSON body read by key,
    and a status code with a JSON body that always carries `success`. */
module Http {
  import opened Common
  import ProjectModel
  import UserModel

  /** A JSON object whose values are strings: `req.body` or `req.params`. */
  type Fields = map<string, string>

  /** Destructuring one key: `undefined` when the key is absent. */
  function Field(f: Fields, key: string): (v: Option<string>)
    ensures v.Some? <==> key in f
    ensures v.Some? ==> v.value == f[key]
  {
    if key in f then Some(f[key]) else None
  }

  const OK: nat := 200
  const Created: nat := 201
  const BadRequest: nat := 400
  const Unauthorized: nat := 401
  const Forbidden: nat := 403
  const NotFound: nat := 404
  const Conflict: nat := 409
  const InternalError: nat := 500

  const InternalErrorMessage := "Internal server error"

  /** The user object login and register return: no password, no timestamp. */
  datatype UserSummary = UserSummary(id: nat, email: string, role: string)

  /** Every JSON body the handlers send. `Failure` is `{ success: false,
      message }`; the others all carry `success: true`. */
  datatype Body =
    | Failure(message: string)
    | Done(message: string)
    | ProjectList(projects: seq<ProjectModel.Project>)
    | CreatedProject(project: Option<ProjectModel.Project>)
    | Access(allowed: bool, message: string)
    | Session(token: string, user: UserSummary)
    | Profile(profile: UserModel.PublicUser)
  {
    /** The body's `success` flag. */
    predicate Success() {
      !Failure?
    }
  }

  datatype Response = Response(status: nat, body: Body)

  /** `res.status(status).json({ success: false, message })`. */
  function Fail(status: nat, message: string): Response {
    Response(status, Failure(message))
  }

  /** The error policy every handler follows: a 2xx status exactly when the
      body reports `success: true`. */
  predicate Coherent(r: Response) {
    (r.status == OK || r.status == Created) <==> r.body.Success()
  }

  /** What a handler leaves behind: the store after the request, and the
      response sent. */
  datatype Handled<S> = Handled(store: S, response: Response)
}

=== FILE: js_string.dfy ===
/** The two string operations of the bearer-header parser, with JavaScript's
    semantics: `startsWith` and `split` on a one-character separator. */
module JsString {

  /** `s.startsWith(p)`: case-sensitive, character-for-character prefix test. */
  predicate StartsWith(s: string, p: string) {
    |p| <= |s| && s[..|p|] == p
  }

  /** `parts.join(c)`: the parts with one `c` between neighbours. */
  function Join(parts: seq<string>, c: char): string
    decreases |parts|
  {
    if |parts| == 0 then ""
    else if |parts| == 1 then parts[0]
    else parts[0] + [c] + Join(parts[1..], c)
  }

  /** `s.split(c)`: the maximal runs of `s` between occurrences of `c`, empty
      runs included, so there is always at least one part and `"x "` splits
      into `["x", ""]`. */
  function Split(s: string, c: char): (parts: seq<string>)
    ensures |parts| >= 1
    ensures forall i :: 0 <= i < |parts| ==> c !in parts[i]
    ensures c in s <==> |parts| > 1
    ensures parts[0] <= s
    ensures |parts[0]| < |s| ==> s[|parts[0]|] == c
    decreases |s|
  {
    if |s| == 0 then [""]
    else
      var rest := Split(s[1..], c);
      assert s == [s[0]] + s[1..];
      if s[0] == c then [""] + rest
      else [[s[0]] + rest[0]] + rest[1..]
  }

  /** Splitting and joining on the same separator gives the string back. */
  lemma {:induction false} JoinOfSplit(s: string, c: char)
    ensures Join(Split(s, c), c) == s
    decreases |s|
  {
    if |s| > 0 {
      var rest := Split(s[1..], c);
      JoinOfSplit(s[1..], c);
      assert s == [s[0]] + s[1..];
      if s[0] != c {
        if |rest| > 1 {
          assert rest == [rest[0]] + rest[1..];
          assert Join(rest, c) == rest[0] + [c] + Join(rest[1..], c);
        }
      }
    }
  }

  /** A prefix free of the separator ends up at the head of the first part. */
  lemma {:induction false} SplitAfterPlainPrefix(p: string, r: string, c: char)
    requires c !in p
    ensures Split(p + r, c) == [p + Split(r, c)[0]] + Split(r, c)[1..]
    decreases |p|
  {
    if |p| > 0 {
      var s := p + r;
      var tail := Split(r, c);
      assert s[1..] == p[1..] + r;
      assert s[0] == p[0] != c;
      SplitAfterPlainPrefix(p[1..], r, c);
      var rest := Split(s[1..], c);
      assert rest == [p[1..] + tail[0]] + tail[1..];
      assert Split(s, c) == [[s[0]] + rest[0]] + rest[1..];
      assert [p[0]] + (p[1..] + tail[0]) == p + tail[0];
    } else {
      var parts := Split(r, c);
      assert p + r == r;
      assert parts == [parts[0]] + parts[1..];
      assert p + parts[0] == parts[0];
    }
  }

  /** A string without the separator splits into itself alone. */
  lemma SplitWithoutSeparator(s: string, c: char)
    requires c !in s
    ensures Split(s, c) == [s]
  {
    SplitAfterPlainPrefix(s, "", c);
    assert s + "" == s;
  }

  /** Joining separator-free parts and splitting again gives the parts back:
      with `JoinOfSplit`, `Split` and `Join` are inverse. */
  lemma {:induction false} SplitOfJoin(parts: seq<string>, c: char)
    requires |parts| >= 1
    requires forall i :: 0 <= i < |parts| ==> c !in parts[i]
    ensures Split(Join(parts, c), c) == parts
    decreases |parts|
  {
    if |parts| == 1 {
      SplitWithoutSeparator(parts[0], c);
    } else {
      var tail := Join(parts[1..], c);
      assert Join(parts, c) == parts[0] + [c] + tail;
      SplitOfJoin(parts[1..], c);
      assert parts[0] + [c] + tail == parts[0] + ([c] + tail);
      SplitAfterPlainPrefix(parts[0], [c] + tail, c);
      assert ([c] + tail)[1..] == tail;
      assert Split([c] + tail, c) == [""] + Split(tail, c);
      assert parts[0] + "" == parts[0];
      assert parts == [parts[0]] + parts[1..];
    }
  }
}

=== FILE: project_controller.dfy ===
/** The project handlers: list, create, block, unblock, and the public
    access check that registers unknown projects on first sight. */
module ProjectController {
  import opened Common
  import opened Http
  import opened Tables
  import opened ProjectModel

  const MissingNameMessage := "Project ID and name are required"
  const DuplicateMessage := "Project ID already in use"
  const MissingIdMessage := "Project ID is required"
  const NotFoundMessage := "Project not found"
  const BlockedMessage := "Project blocked successfully"
  const BlockFailedMessage := "Failed to block project"
  const UnblockedMessage := "Project unblocked successfully"
  const UnblockFailedMessage := "Failed to unblock project"
  const GrantedMessage := "Access granted"
  const DeniedMessage := "Access denied"

  /** `projectId` is registered and its stored status is `status`. */
  ghost predicate StatusIs(t: ProjectTable, projectId: string, status: string) {
    && !Unregistered(t, projectId)
    && forall k :: k in t.rows && t.rows[k].projectId == projectId ==> t.rows[k].status == status
  }

  /** `t'` is `t` with the status of the project `projectId` set to `status`,
      and nothing else changed. */
  ghost predicate OnlyStatusSet(t: ProjectTable, t': ProjectTable, projectId: string, status: string) {
    && t'.nextId == t.nextId
    && t'.rows.Keys == t.rows.Keys
    && forall k :: k in t.rows ==>
         t'.rows[k] == if t.rows[k].projectId == projectId then t.rows[k].(status := status) else t.rows[k]
  }

  /** `getAllProjects`: 200 with every project, newest first. */
  function GetAllProjects(t: ProjectTable): (r: Response)
    requires Valid(t)
    ensures Coherent(r) && r.status == OK && r.body.ProjectList?
    ensures SortedDesc(r.body.projects, CreatedAtOf)
    ensures forall k :: k in t.rows ==> t.rows[k] in r.body.projects
    ensures forall p :: p in r.body.projects ==> p.id in t.rows && t.rows[p.id] == p
    ensures forall i, j :: 0 <= i < j < |r.body.projects| ==> r.body.projects[i].id != r.body.projects[j].id
  {
    Response(OK, ProjectList(ProjectModel.GetAllProjects(t)))
  }

  /** `createProject`: a missing or empty `project_id` or `name` gives 400 and
      a taken `project_id` 409, both without writing; otherwise exactly one
      project is added, with status `"allowed"` unless the body gave one, and
      201 returns that record. */
  function CreateProject(t: ProjectTable, body: Fields, now: nat): (r: Handled<ProjectTable>)
    requires Valid(t)
    ensures Coherent(r.response) && Valid(r.store)
    ensures r.response.status != Created ==> r.store == t
    ensures !Truthy(Field(body, "project_id")) || !Truthy(Field(body, "name")) ==>
              r.response == Fail(BadRequest, MissingNameMessage)
    ensures Truthy(Field(body, "project_id")) && Truthy(Field(body, "name")) ==>
              (r.response == Fail(Conflict, DuplicateMessage) <==> !Unregistered(t, body["project_id"]))
    ensures Truthy(Field(body, "project_id")) && Truthy(Field(body, "name")) && Unregistered(t, body["project_id"]) ==>
              && r.response.status == Created
              && var row := Project(t.nextId, body["project_id"], body["name"],
                                    WithDefault(Field(body, "status"), Allowed), now);
              && t.nextId !in t.rows
              && r.store.rows == t.rows[t.nextId := row]
              && r.response.body == CreatedProject(Some(row))
  {
    var projectId := Field(body, "project_id");
    var name := Field(body, "name");
    var status := WithDefault(Field(body, "status"), Allowed);
    if !Truthy(projectId) || !Truthy(name) then
      Handled(t, Fail(BadRequest, MissingNameMessage))
    else if GetProjectByProjectId(t, projectId.value).Some? then
      Handled(t, Fail(Conflict, DuplicateMessage))
    else
      match ProjectModel.CreateProject(t, NewProject(projectId.value, name, status), now)
      case Err(_) => Handled(t, Fail(InternalError, InternalErrorMessage))
      case Ok(ins) =>
        assert ins.table.rows == t.rows[ins.id := ins.table.rows[ins.id]];
        Handled(ins.table, Response(Created, CreatedProject(GetProjectById(ins.table, ins.id))))
  }

  /** The body of `blockProject` and `unblockProject`, which differ only in the
      status written and the messages. */
  function SetStatus(t: ProjectTable, body: Fields, status: string, done: string, failed: string)
    : (r: Handled<ProjectTable>)
    requires Valid(t)
    ensures Coherent(r.response) && Valid(r.store)
    ensures !Truthy(Field(body, "project_id")) ==> r == Handled(t, Fail(BadRequest, MissingIdMessage))
    ensures Truthy(Field(body, "project_id")) && Unregistered(t, body["project_id"]) ==>
              r == Handled(t, Fail(NotFound, NotFoundMessage))
    ensures Truthy(Field(body, "project_id")) && !Unregistered(t, body["project_id"]) ==>
              && r.response == Response(OK, Done(done))
              && OnlyStatusSet(t, r.store, body["project_id"], status)
  {
    var projectId := Field(body, "project_id");
    if !Truthy(projectId) then
      Handled(t, Fail(BadRequest, MissingIdMessage))
    else if GetProjectByProjectId(t, projectId.value).None? then
      Handled(t, Fail(NotFound, NotFoundMessage))
    else
      var update := SetProjectStatus(t, projectId.value, status);
      if update.affected then Handled(update.table, Response(OK, Done(done)))
      else Handled(update.table, Fail(BadRequest, failed))
  }

  /** `blockProject`: see `SetStatus`, writing `"blocked"`. */
  function BlockProject(t: ProjectTable, body: Fields): (r: Handled<ProjectTable>)
    requires Valid(t)
    ensures Coherent(r.response) && Valid(r.store)
    ensures r.response.status != OK ==> r.store == t
    ensures r.response.status == OK <==> Truthy(Field(body, "project_id")) && !Unregistered(t, body["project_id"])
    ensures !Truthy(Field(body, "project_id")) ==> r == Handled(t, Fail(BadRequest, MissingIdMessage))
    ensures Truthy(Field(body, "project_id")) && Unregistered(t, body["project_id"]) ==>
              r == Handled(t, Fail(NotFound, NotFoundMessage))
    ensures r.response.status == OK ==> StatusIs(r.store, body["project_id"], Blocked)
    ensures r.response.status == OK ==>
              r.response == Response(OK, Done(BlockedMessage)) && OnlyStatusSet(t, r.store, body["project_id"], Blocked)
    ensures r.response.status == NotFound <==> Truthy(Field(body, "project_id")) && Unregistered(t, body["project_id"])
  {
    SetStatus(t, body, Blocked, BlockedMessage, BlockFailedMessage)
  }

  /** `unblockProject`: see `SetStatus`, writing `"allowed"`. */
  function UnblockProject(t: ProjectTable, body: Fields): (r: Handled<ProjectTable>)
    requires Valid(t)
    ensures Coherent(r.response) && Valid(r.store)
    ensures r.response.status != OK ==> r.store == t
    ensures r.response.status == OK <==> Truthy(Field(body, "project_id")) && !Unregistered(t, body["project_id"])
    ensures !Truthy(Field(body, "project_id")) ==> r == Handled(t, Fail(BadRequest, MissingIdMessage))
    ensures Truthy(Field(body, "project_id")) && Unregistered(t, body["project_id"]) ==>
              r == Handled(t, Fail(NotFound, NotFoundMessage))
    ensures r.response.status == OK ==> StatusIs(r.store, body["project_id"], Allowed)
    ensures r.response.status == OK ==>
              r.response == Response(OK, Done(UnblockedMessage)) && OnlyStatusSet(t, r.store, body["project_id"], Allowed)
    ensures r.response.status == NotFound <==> Truthy(Field(body, "project_id")) && Unregistered(t, body["project_id"])
  {
    SetStatus(t, body, Allowed, UnblockedMessage, UnblockFailedMessage)
  }

  /** The access-check response for a stored status: allowed exactly when the
      status is the string `"allowed"`. */
  function Verdict(status: Option<string>): (r: Response)
    ensures Coherent(r) && r.status == OK && r.body.Access?
    ensures r.body.allowed <==> status == Some(Allowed)
    ensures r.body.message == if r.body.allowed then GrantedMessage else DeniedMessage
  {
    var allowed := status.Some? && status.value == Allowed;
    Response(OK, Access(allowed, if allowed then GrantedMessage else DeniedMessage))
  }

  /** `checkAccess`, given the fields it destructures (`projectId`, `name`,
      `status`). A missing or empty `projectId` gives 400. A registered
      project is answered from its stored status and nothing is written. An
      unknown one is first inserted with the given name and status (default
      `"allowed"`) and answered from that; without a name the insert
      is refused (the driver rejects an `undefined` bind value) and the
      handler answers 500. */
  function CheckAccess(t: ProjectTable, params: Fields, now: nat): (r: Handled<ProjectTable>)
    requires Valid(t)
    ensures Coherent(r.response) && Valid(r.store)
    ensures !Truthy(Field(params, "projectId")) ==> r == Handled(t, Fail(BadRequest, MissingIdMessage))
    ensures Truthy(Field(params, "projectId")) && !Unregistered(t, params["projectId"]) ==>
              r.store == t
    ensures Truthy(Field(params, "projectId")) && Unregistered(t, params["projectId"]) && "name" !in params ==>
              r == Handled(t, Fail(InternalError, InternalErrorMessage))
    ensures Truthy(Field(params, "projectId")) && Unregistered(t, params["projectId"]) && "name" in params ==>
              && t.nextId !in t.rows
              && r.store.rows == t.rows[t.nextId := Project(t.nextId, params["projectId"], params["name"],
                                                            WithDefault(Field(params, "status"), Allowed), now)]
    ensures Truthy(Field(params, "projectId")) && (!Unregistered(t, params["projectId"]) || "name" in params) ==>
              r.response.status == OK
    ensures r.response.status == OK ==>
              && !Unregistered(r.store, params["projectId"])
              && r.response.body.Access?
              && (r.response.body.allowed <==> StatusIs(r.store, params["projectId"], Allowed))
              && r.response.body.message == if r.response.body.allowed then GrantedMessage else DeniedMessage
  {
    var projectId := Field(params, "projectId");
    var name := Field(params, "name");
    var status := WithDefault(Field(params, "status"), Allowed);
    if !Truthy(projectId) then
      Handled(t, Fail(BadRequest, MissingIdMessage))
    else
      match GetProjectByProjectId(t, projectId.value)
      case Some(project) =>
        Handled(t, Verdict(Some(project.status)))
      case None =>
        match ProjectModel.CreateProject(t, NewProject(projectId.value, name, status), now)
        case Err(_) => Handled(t, Fail(InternalError, InternalErrorMessage))
        case Ok(ins) =>
          assert ins.table.rows == t.rows[ins.id := ins.table.rows[ins.id]];
          var found := GetProjectByProjectId(ins.table, projectId.value);
          Handled(ins.table, Verdict(if found.Some? then Some(found.value.status) else None))
  }

  /** The fields a client sends to ask about `projectId`. */
  function AccessQuery(projectId: string, name: string): Fields {
    map["projectId" := projectId, "name" := name]
  }

  /** The first check of a never-seen project registers it, once, as
      allowed, and grants access. */
  lemma FirstCheckRegistersAllowed(t: ProjectTable, projectId: string, name: string, now: nat)
    requires Valid(t) && projectId != "" && Unregistered(t, projectId)
    ensures var r := CheckAccess(t, AccessQuery(projectId, name), now);
            && r.store.rows == t.rows[t.nextId := Project(t.nextId, projectId, name, Allowed, now)]
            && r.response == Response(OK, Access(true, GrantedMessage))
  {
    var q := AccessQuery(projectId, name);
    assert Field(q, "projectId") == Some(projectId) && Field(q, "status") == None;
    var r := CheckAccess(t, q, now);
    assert r.store.rows[t.nextId].status == Allowed;
    assert StatusIs(r.store, projectId, Allowed);
  }

  /** Checking again changes nothing: whatever the first check answered, a
      second one with the same fields writes nothing and answers the same. A
      failed first check wrote nothing, so the second meets the same table. */
  lemma CheckAccessIsIdempotent(t: ProjectTable, params: Fields, now: nat, later: nat)
    requires Valid(t)
    ensures var first := CheckAccess(t, params, now);
            CheckAccess(first.store, params, later) == first
  {
    var first := CheckAccess(t, params, now);
    if first.response.status == OK {
      var second := CheckAccess(first.store, params, later);
      var id := params["projectId"];
      assert second.store == first.store;
      assert StatusIs(first.store, id, Allowed) <==> second.response.body.allowed;
    } else {
      assert first.store == t;
    }
  }

  /** A registered project answers from its stored status, whatever the
      query's `status` says. */
  lemma KnownProjectIgnoresQueryStatus(t: ProjectTable, params: Fields, now: nat)
    requires Valid(t) && Truthy(Field(params, "projectId")) && !Unregistered(t, params["projectId"])
    ensures CheckAccess(t, params, now).response.body.allowed
            <==> StatusIs(t, params["projectId"], Allowed)
  {
  }

  /** Blocking a registered project denies it at the next check. */
  lemma BlockThenCheckDenies(t: ProjectTable, projectId: string, query: Fields, now: nat)
    requires Valid(t) && projectId != "" && !Unregistered(t, projectId)
    requires Field(query, "projectId") == Some(projectId)
    ensures var blocked := BlockProject(t, map["project_id" := projectId]);
            && blocked.response.status == OK
            && CheckAccess(blocked.store, query, now).response == Response(OK, Access(false, DeniedMessage))
  {
    var body := map["project_id" := projectId];
    assert Field(body, "project_id") == Some(projectId);
    var blocked := BlockProject(t, body);
    assert StatusIs(blocked.store, projectId, Blocked);
    assert !StatusIs(blocked.store, projectId, Allowed);
  }

  /** Unblocking a registered project grants it at the next check. */
  lemma UnblockThenCheckGrants(t: ProjectTable, projectId: string, query: Fields, now: nat)
    requires Valid(t) && projectId != "" && !Unregistered(t, projectId)
    requires Field(query, "projectId") == Some(projectId)
    ensures var unblocked := UnblockProject(t, map["project_id" := projectId]);
            && unblocked.response.status == OK
            && CheckAccess(unblocked.store, query, now).response == Response(OK, Access(true, GrantedMessage))
  {
    var body := map["project_id" := projectId];
    assert Field(body, "project_id") == Some(projectId);
    var unblocked := UnblockProject(t, body);
    assert StatusIs(unblocked.store, projectId, Allowed);
  }

  /** Setting a status a second time changes nothing. */
  lemma StatusSetTwiceIsStable(t: ProjectTable, once: ProjectTable, twice: ProjectTable, projectId: string, status: string)
    requires OnlyStatusSet(t, once, projectId, status)
    requires OnlyStatusSet(once, twice, projectId, status)
    ensures twice == once
  {
    forall k | k in once.rows ensures twice.rows[k] == once.rows[k] {
      if once.rows[k].projectId == projectId {
        assert t.rows[k].projectId == projectId;
      }
    }
    assert twice.rows == once.rows;
  }

  /** Blocking is an overwrite: blocking a blocked project succeeds again and
      leaves the table as it was. */
  lemma BlockIsIdempotent(t: ProjectTable, body: Fields)
    requires Valid(t)
    requires BlockProject(t, body).response.status == OK
    ensures var once := BlockProject(t, body);
            var twice := BlockProject(once.store, body);
            twice.response == once.response && twice.store == once.store
  {
    var once := BlockProject(t, body);
    var twice := BlockProject(once.store, body);
    assert !Unregistered(once.store, body["project_id"]);
    StatusSetTwiceIsStable(t, once.store, twice.store, body["project_id"], Blocked);
  }
}

=== FILE: project_model.dfy ===
/** The `projects` table and the functions of the project model over it.
    The table is an immutable value; every write returns the new table. */
module ProjectModel {
  import opened Common
  import opened Tables

  const Allowed := "allowed"
  const Blocked := "blocked"

  /** One row. `status` is kept as the string the handler passed: the
      handlers cast it to `'allowed' | 'blocked'` without checking it. */
  datatype Project = Project(id: nat, projectId: string, name: string, status: string, createdAt: nat)

  /** The rows keyed by the AUTO_INCREMENT `id`, and the next id to hand out. */
  datatype ProjectTable = ProjectTable(rows: map<nat, Project>, nextId: nat)

  /** The fields of an INSERT. `name` may be absent (checkAccess passes
      whatever the request held); the insert then fails and writes nothing. */
  datatype NewProject = NewProject(projectId: string, name: Option<string>, status: string)

  /** A `Partial<Project>`: the keys present, with their values. */
  datatype ProjectPatch = ProjectPatch(
    id: Option<nat>, projectId: Option<string>, name: Option<string>,
    status: Option<string>, createdAt: Option<nat>)

  function IdOf(p: Project): nat { p.id }
  function CreatedAtOf(p: Project): int { p.createdAt }

  /** The table's constraints: AUTO_INCREMENT ids and a UNIQUE `project_id`. */
  ghost predicate Valid(t: ProjectTable) {
    && KeyedBelow(t.rows, t.nextId, IdOf)
    && forall a, b :: a in t.rows && b in t.rows && t.rows[a].projectId == t.rows[b].projectId ==> a == b
  }

  /** No row carries `projectId`. */
  ghost predicate Unregistered(t: ProjectTable, projectId: string) {
    forall k :: k in t.rows ==> t.rows[k].projectId != projectId
  }

  /** The empty table a fresh database starts with. */
  function Empty(): (t: ProjectTable)
    ensures Valid(t) && t.rows == map[]
  {
    ProjectTable(map[], 1)
  }

  /** `getAllProjects`: every row once, newest `created_at` first. */
  function GetAllProjects(t: ProjectTable): (r: seq<Project>)
    requires Valid(t)
    ensures SortedDesc(r, CreatedAtOf)
    ensures forall k :: k in t.rows ==> t.rows[k] in r
    ensures forall i :: 0 <= i < |r| ==> r[i].id in t.rows && t.rows[r[i].id] == r[i]
    ensures forall i, j :: 0 <= i < j < |r| ==> r[i].id != r[j].id
  {
    var scan := Scan(t.rows, t.nextId, IdOf);
    var r := SortDesc(scan, CreatedAtOf);
    SortedScanIsFaithful(t, scan, r);
    r
  }

  /** A permutation of the scan holds the same rows, each still once. */
  lemma SortedScanIsFaithful(t: ProjectTable, scan: seq<Project>, r: seq<Project>)
    requires Valid(t)
    requires forall i :: 0 <= i < |scan| ==> scan[i].id in t.rows && t.rows[scan[i].id] == scan[i]
    requires forall k :: k in t.rows ==> t.rows[k] in scan
    requires forall i, j :: 0 <= i < j < |scan| ==> scan[i].id < scan[j].id
    requires multiset(r) == multiset(scan)
    ensures forall k :: k in t.rows ==> t.rows[k] in r
    ensures forall i :: 0 <= i < |r| ==> r[i].id in t.rows && t.rows[r[i].id] == r[i]
    ensures forall i, j :: 0 <= i < j < |r| ==> r[i].id != r[j].id
  {
    forall x ensures x in r <==> x in scan {
      assert x in r <==> x in multiset(r);
      assert x in scan <==> x in multiset(scan);
    }
    forall i | 0 <= i < |r| ensures r[i].id in t.rows && t.rows[r[i].id] == r[i] {
      assert r[i] in scan;
      var j :| 0 <= j < |scan| && scan[j] == r[i];
    }
    forall i, j | 0 <= i < j < |r| ensures r[i].id != r[j].id {
      assert r[i] in scan && r[j] in scan;
      if r[i].id == r[j].id {
        DuplicateCounts(r, i, j);
        DistinctCounts(scan, r[i]);
      }
    }
  }

  /** An element at two positions is counted at least twice. */
  lemma DuplicateCounts<V>(s: seq<V>, i: nat, j: nat)
    requires i < j < |s| && s[i] == s[j]
    ensures multiset(s)[s[i]] >= 2
  {
    assert s == s[..i] + [s[i]] + s[i + 1..j] + [s[j]] + s[j + 1..];
  }

  /** In a scan, whose ids strictly increase, each row is counted at most once. */
  lemma {:induction false} DistinctCounts(s: seq<Project>, x: Project)
    requires forall i, j :: 0 <= i < j < |s| ==> s[i].id < s[j].id
    ensures multiset(s)[x] <= 1
  {
    if |s| > 0 {
      var init := s[..|s| - 1];
      DistinctCounts(init, x);
      assert s == init + [s[|s| - 1]];
      if s[|s| - 1] == x {
        assert x !in init;
      }
    }
  }

  /** `getProjectById`: the row with that primary key, or null. */
  function GetProjectById(t: ProjectTable, id: nat): (r: Option<Project>)
    requires Valid(t)
    ensures r.Some? <==> id in t.rows
    ensures r.Some? ==> r.value == t.rows[id] && r.value.id == id
  {
    if id in t.rows then Some(t.rows[id]) else None
  }

  /** `getProjectByProjectId`: the first row of `WHERE project_id = ?`, or
      null; the UNIQUE index makes it the only one. */
  function GetProjectByProjectId(t: ProjectTable, projectId: string): (r: Option<Project>)
    requires Valid(t)
    ensures r.None? <==> Unregistered(t, projectId)
    ensures r.Some? ==> r.value.projectId == projectId && r.value.id in t.rows && t.rows[r.value.id] == r.value
    ensures r.Some? ==> forall k :: k in t.rows && t.rows[k].projectId == projectId ==> k == r.value.id
  {
    var scan := Scan(t.rows, t.nextId, IdOf);
    var r := First(scan, (p: Project) => p.projectId == projectId);
    assert r.None? ==> Unregistered(t, projectId) by {
      if r.None? {
        forall k | k in t.rows ensures t.rows[k].projectId != projectId {
          var i :| 0 <= i < |scan| && scan[i] == t.rows[k];
        }
      }
    }
    r
  }

  /** `createProject`: INSERT with `created_at = now`. It fails for an absent
      name (an `undefined` bind value, and a NOT NULL column) and for a
      `project_id` already present (UNIQUE);
      otherwise exactly one row appears, under a fresh id. */
  function CreateProject(t: ProjectTable, p: NewProject, now: nat): (r: Result<Inserted<ProjectTable>>)
    requires Valid(t)
    ensures r.Err? <==> p.name.None? || !Unregistered(t, p.projectId)
    ensures r.Ok? ==> Valid(r.value.table)
    ensures r.Ok? ==> r.value.id > 0 && r.value.id !in t.rows
    ensures r.Ok? ==> r.value.table.rows.Keys == t.rows.Keys + {r.value.id}
    ensures r.Ok? ==> forall k :: k in t.rows ==> r.value.table.rows[k] == t.rows[k]
    ensures r.Ok? ==> r.value.table.rows[r.value.id]
                      == Project(r.value.id, p.projectId, p.name.value, p.status, now)
  {
    if p.name.None? then Err(MissingValue)
    else if GetProjectByProjectId(t, p.projectId).Some? then Err(DuplicateKey)
    else
      var id := t.nextId;
      var row := Project(id, p.projectId, p.name.value, p.status, now);
      Ok(Inserted(ProjectTable(t.rows[id := row], id + 1), id))
  }

  /** Whether a patch names a column `updateProject` writes: everything but
      `id` and `created_at`, which it filters out. */
  predicate Writes(patch: ProjectPatch) {
    patch.projectId.Some? || patch.name.Some? || patch.status.Some?
  }

  /** The row with the patch's writable columns applied. */
  function Patched(row: Project, patch: ProjectPatch): Project {
    row.(projectId := WithDefault(patch.projectId, row.projectId),
         name := WithDefault(patch.name, row.name),
         status := WithDefault(patch.status, row.status))
  }

  /** Some row other than `id` carries `projectId`. */
  ghost predicate HeldByOther(t: ProjectTable, projectId: string, id: nat) {
    exists k :: k in t.rows && k != id && t.rows[k].projectId == projectId
  }

  /** Overwriting one row in place keeps the constraints, provided its id
      stays and its `project_id` is not another row's. */
  lemma ReplaceRowKeepsValid(t: ProjectTable, row: Project)
    requires Valid(t) && row.id in t.rows
    requires !HeldByOther(t, row.projectId, row.id)
    ensures Valid(t.(rows := t.rows[row.id := row]))
  {
    var t' := t.(rows := t.rows[row.id := row]);
    forall a, b | a in t'.rows && b in t'.rows && t'.rows[a].projectId == t'.rows[b].projectId
      ensures a == b
    {
      if a != row.id && b != row.id {
        assert t.rows[a].projectId == t.rows[b].projectId;
      }
    }
  }

  /** `updateProject`: without a writable column it returns false and writes
      nothing; otherwise it updates the row with that id, leaving `id` and
      `created_at` alone, and reports whether such a row exists. Moving the
      row onto another row's `project_id` is refused by the UNIQUE index. */
  function UpdateProject(t: ProjectTable, id: nat, patch: ProjectPatch): (r: Result<Updated<ProjectTable>>)
    requires Valid(t)
    ensures !Writes(patch) ==> r == Ok(Updated(t, false))
    ensures r.Err? <==> Writes(patch) && id in t.rows && patch.projectId.Some?
                        && HeldByOther(t, patch.projectId.value, id)
    ensures r.Ok? ==> Valid(r.value.table) && r.value.table.nextId == t.nextId
    ensures r.Ok? && Writes(patch) ==> (r.value.affected <==> id in t.rows)
    ensures r.Ok? && id !in t.rows ==> r.value.table == t
    ensures r.Ok? && id in t.rows && Writes(patch) ==> r.value.table.rows == t.rows[id := Patched(t.rows[id], patch)]
  {
    if !Writes(patch) || id !in t.rows then Ok(Updated(t, false))
    else
      var row := Patched(t.rows[id], patch);
      var found := GetProjectByProjectId(t, row.projectId);
      if found.Some? && found.value.id != id then
        Err(DuplicateKey)
      else
        assert !HeldByOther(t, row.projectId, id);
        ReplaceRowKeepsValid(t, row);
        Ok(Updated(t.(rows := t.rows[id := row]), true))
  }

  /** What `Patched` writes: the given columns, never `id` or `created_at`. */
  lemma PatchedKeepsIdentity(row: Project, patch: ProjectPatch)
    ensures Patched(row, patch).id == row.id
    ensures Patched(row, patch).createdAt == row.createdAt
    ensures patch.name.Some? ==> Patched(row, patch).name == patch.name.value
    ensures patch.name.None? ==> Patched(row, patch).name == row.name
    ensures patch.status.Some? ==> Patched(row, patch).status == patch.status.value
    ensures patch.status.None? ==> Patched(row, patch).status == row.status
    ensures patch.projectId.Some? ==> Patched(row, patch).projectId == patch.projectId.value
    ensures patch.projectId.None? ==> Patched(row, patch).projectId == row.projectId
  {
  }

  /** `setProjectStatus`: sets the status of the row with that `project_id`,
      touches nothing else, and reports whether such a row exists. Rows are
      counted as matched, so setting a status a row already has succeeds. */
  function SetProjectStatus(t: ProjectTable, projectId: string, status: string): (r: Updated<ProjectTable>)
    requires Valid(t)
    ensures Valid(r.table) && r.table.nextId == t.nextId
    ensures r.affected <==> !Unregistered(t, projectId)
    ensures r.table.rows.Keys == t.rows.Keys
    ensures forall k :: k in t.rows && t.rows[k].projectId != projectId ==> r.table.rows[k] == t.rows[k]
    ensures forall k :: k in t.rows && t.rows[k].projectId == projectId ==> r.table.rows[k] == t.rows[k].(status := status)
  {
    match GetProjectByProjectId(t, projectId)
    case None => Updated(t, false)
    case Some(row) =>
      var row' := row.(status := status);
      assert !HeldByOther(t, row'.projectId, row'.id);
      ReplaceRowKeepsValid(t, row');
      Updated(t.(rows := t.rows[row.id := row']), true)
  }

  /** `deleteProject`: removes the row with that id, if any, and reports
      whether there was one. */
  function DeleteProject(t: ProjectTable, id: nat): (r: Updated<ProjectTable>)
    requires Valid(t)
    ensures Valid(r.table) && r.table.nextId == t.nextId
    ensures r.affected <==> id in t.rows
    ensures r.table.rows.Keys == t.rows.Keys - {id}
    ensures forall k :: k in r.table.rows ==> r.table.rows[k] == t.rows[k]
  {
    Updated(t.(rows := t.rows - {id}), id in t.rows)
  }
}

=== FILE: reference_crypto.dfy ===
/** A concrete token codec and password hash that satisfy `Crypto.JwtLaws`
    and `Crypto.HashLaws`, so the laws the proofs assume are consistent. It
    carries no security: the token spells out its fields with a prefix-free
    code (unary numbers, escaped strings) and compares the secret verbatim. */
module ReferenceCrypto {
  import opened Common
  import opened Crypto

  /** `n` in unary, terminated by a dot. */
  function EncodeNat(n: nat): string {
    if n == 0 then "." else "1" + EncodeNat(n - 1)
  }

  function DecodeNat(t: string): (r: Option<(nat, string)>)
    ensures r.Some? ==> |r.value.1| < |t|
  {
    if |t| == 0 then None
    else if t[0] == '.' then Some((0, t[1..]))
    else if t[0] == '1' then
      match DecodeNat(t[1..])
      case Some((n, rest)) => Some((n + 1, rest))
      case None => None
    else None
  }

  /** One character, with space, dot and backslash escaped. */
  function EscapeChar(c: char): string {
    if c == ' ' then "\\_"
    else if c == '.' then "\\,"
    else if c == '\\' then "\\\\"
    else [c]
  }

  /** A string as its escaped characters, terminated by an unescaped dot. */
  function EncodeString(s: string): string {
    if |s| == 0 then "." else EscapeChar(s[0]) + EncodeString(s[1..])
  }

  function DecodeString(t: string): (r: Option<(string, string)>)
    ensures r.Some? ==> |r.value.1| < |t|
    decreases |t|
  {
    if |t| == 0 || t[0] == ' ' then None
    else if t[0] == '.' then Some(("", t[1..]))
    else if t[0] == '\\' then
      if |t| < 2 then None
      else
        var c := if t[1] == '_' then Some(' ')
                 else if t[1] == ',' then Some('.')
                 else if t[1] == '\\' then Some('\\')
                 else None;
        match c
        case None => None
        case Some(ch) =>
          match DecodeString(t[2..])
          case Some((s, rest)) => Some(([ch] + s, rest))
          case None => None
    else
      match DecodeString(t[1..])
      case Some((s, rest)) => Some(([t[0]] + s, rest))
      case None => None
  }

  lemma {:induction false} DecodeEncodeNat(n: nat, rest: string)
    ensures DecodeNat(EncodeNat(n) + rest) == Some((n, rest))
    ensures ' ' !in EncodeNat(n)
  {
    if n > 0 {
      DecodeEncodeNat(n - 1, rest);
      assert ("1" + EncodeNat(n - 1) + rest)[1..] == EncodeNat(n - 1) + rest;
    } else {
      assert (EncodeNat(0) + rest)[1..] == rest;
    }
  }

  /** Decoding an escaped character consumes exactly its escape. */
  lemma DecodeEscaped(c: char, tail: string)
    ensures DecodeString(EscapeChar(c) + tail)
            == match DecodeString(tail)
               case Some((s, rest)) => Some(([c] + s, rest))
               case None => None
    ensures ' ' !in EscapeChar(c)
  {
    var e := EscapeChar(c);
    var t := e + tail;
    if c == ' ' || c == '.' || c == '\\' {
      assert |e| == 2 && e[0] == '\\';
      assert t[0] == '\\' && t[1] == e[1];
      assert t[2..] == tail;
    } else {
      assert e == [c];
      assert t[0] == c && t[1..] == tail;
    }
  }

  lemma {:induction false} DecodeEncodeString(s: string, rest: string)
    ensures DecodeString(EncodeString(s) + rest) == Some((s, rest))
    ensures ' ' !in EncodeString(s)
    decreases |s|
  {
    if |s| == 0 {
      assert (EncodeString(s) + rest)[1..] == rest;
    } else {
      var tail := EncodeString(s[1..]) + rest;
      DecodeEncodeString(s[1..], rest);
      DecodeEscaped(s[0], tail);
      assert EncodeString(s) + rest == EscapeChar(s[0]) + tail;
      assert s == [s[0]] + s[1..];
    }
  }

  /** The token: every field in order, then `iat` and `exp = iat + expiresIn`. */
  function Sign(p: Payload, secret: string, ttl: nat, iat: nat): string {
    EncodeNat(p.userId)
      + (EncodeString(p.email)
      + (EncodeString(p.role)
      + (EncodeString(secret)
      + (EncodeNat(iat)
      + EncodeNat(iat + ttl)))))
  }

  function Verify(token: string, secret: string, now: nat): Option<Claims> {
    match Parse(token)
    case None => None
    case Some((p, signedWith, iat, exp)) =>
      if signedWith != secret || exp <= now then None else Some(Claims(p, iat, exp))
  }

  /** The stored hash: the salt, then the password. */
  function Hash(password: string, salt: string): string {
    EncodeString(salt) + password
  }

  function Compare(password: string, hash: string): bool {
    match DecodeString(hash)
    case Some((_, rest)) => rest == password
    case None => false
  }

  function ReferenceJwt(): Jwt {
    Jwt(Sign, Verify)
  }

  function ReferenceBcrypt(): Bcrypt {
    Bcrypt(Hash, Compare)
  }

  /** The fields of a token, parsed back in order: user id, email, role,
      signing secret, `iat` and `exp`, with nothing left over. */
  function Parse(token: string): Option<(Payload, string, nat, nat)> {
    match DecodeNat(token)
    case None => None
    case Some((userId, t)) => ParseEmail(userId, t)
  }

  function ParseEmail(userId: nat, t: string): Option<(Payload, string, nat, nat)> {
    match DecodeString(t)
    case None => None
    case Some((email, t')) => ParseRole(userId, email, t')
  }

  function ParseRole(userId: nat, email: string, t: string): Option<(Payload, string, nat, nat)> {
    match DecodeString(t)
    case None => None
    case Some((role, t')) => ParseSecret(Payload(userId, email, role), t')
  }

  function ParseSecret(p: Payload, t: string): Option<(Payload, string, nat, nat)> {
    match DecodeString(t)
    case None => None
    case Some((signedWith, t')) => ParseTimes(p, signedWith, t')
  }

  function ParseTimes(p: Payload, signedWith: string, t: string): Option<(Payload, string, nat, nat)> {
    match DecodeNat(t)
    case None => None
    case Some((iat, t')) =>
      match DecodeNat(t')
      case None => None
      case Some((exp, t'')) => if t'' != "" then None else Some((p, signedWith, iat, exp))
  }

  lemma SignIsCompact(p: Payload, secret: string, ttl: nat, iat: nat)
    ensures Compact(Sign(p, secret, ttl, iat))
  {
    DecodeEncodeNat(p.userId, "");
    DecodeEncodeString(p.email, "");
    DecodeEncodeString(p.role, "");
    DecodeEncodeString(secret, "");
    DecodeEncodeNat(iat, "");
    DecodeEncodeNat(iat + ttl, "");
  }

  lemma ParseTimesOf(p: Payload, secret: string, iat: nat, exp: nat)
    ensures ParseTimes(p, secret, EncodeNat(iat) + EncodeNat(exp)) == Some((p, secret, iat, exp))
  {
    DecodeEncodeNat(iat, EncodeNat(exp));
    DecodeEncodeNat(exp, "");
    assert EncodeNat(exp) + "" == EncodeNat(exp);
  }

  lemma ParseSecretOf(p: Payload, secret: string, t: string)
    ensures ParseSecret(p, EncodeString(secret) + t) == ParseTimes(p, secret, t)
  {
    DecodeEncodeString(secret, t);
  }

  lemma ParseRoleOf(userId: nat, email: string, role: string, t: string)
    ensures ParseRole(userId, email, EncodeString(role) + t) == ParseSecret(Payload(userId, email, role), t)
  {
    DecodeEncodeString(role, t);
  }

  lemma ParseEmailOf(userId: nat, email: string, t: string)
    ensures ParseEmail(userId, EncodeString(email) + t) == ParseRole(userId, email, t)
  {
    DecodeEncodeString(email, t);
  }

  lemma ParseOf(userId: nat, t: string)
    ensures Parse(EncodeNat(userId) + t) == ParseEmail(userId, t)
  {
    DecodeEncodeNat(userId, t);
  }

  lemma ParseSign(p: Payload, secret: string, ttl: nat, iat: nat)
    ensures Parse(Sign(p, secret, ttl, iat)) == Some((p, secret, iat, iat + ttl))
  {
    var t4 := EncodeNat(iat) + EncodeNat(iat + ttl);
    var t3 := EncodeString(secret) + t4;
    var t2 := EncodeString(p.role) + t3;
    var t1 := EncodeString(p.email) + t2;
    calc {
      Parse(Sign(p, secret, ttl, iat));
      Parse(EncodeNat(p.userId) + t1);
      { ParseOf(p.userId, t1); }
      ParseEmail(p.userId, t1);
      { ParseEmailOf(p.userId, p.email, t2); }
      ParseRole(p.userId, p.email, t2);
      { ParseRoleOf(p.userId, p.email, p.role, t3); }
      ParseSecret(Payload(p.userId, p.email, p.role), t3);
      { ParseSecretOf(p, secret, t4); assert Payload(p.userId, p.email, p.role) == p; }
      ParseTimes(p, secret, t4);
      { ParseTimesOf(p, secret, iat, iat + ttl); }
      Some((p, secret, iat, iat + ttl));
    }
  }

  lemma SignDecodes(p: Payload, secret: string, ttl: nat, iat: nat, now: nat, other: string)
    ensures Compact(Sign(p, secret, ttl, iat))
    ensures Verify(Sign(p, secret, ttl, iat), other, now)
            == if now < iat + ttl && other == secret then Some(Claims(p, iat, iat + ttl)) else None
  {
    SignIsCompact(p, secret, ttl, iat);
    ParseSign(p, secret, ttl, iat);
  }

  lemma ReferenceSignsCompact()
    ensures SignsCompact(ReferenceJwt())
  {
    forall p: Payload, s: string, ttl: nat, iat: nat ensures Compact(Sign(p, s, ttl, iat)) {
      SignDecodes(p, s, ttl, iat, 0, s);
    }
  }

  lemma ReferenceRejectsEmpty()
    ensures RejectsEmpty(ReferenceJwt())
  {
  }

  lemma ReferenceRoundTrips()
    ensures RoundTrips(ReferenceJwt())
  {
    forall p: Payload, s: string, ttl: nat, iat: nat, now: nat
      ensures Verify(Sign(p, s, ttl, iat), s, now)
              == if now < iat + ttl then Some(Claims(p, iat, iat + ttl)) else None
    {
      SignDecodes(p, s, ttl, iat, now, s);
    }
  }

  lemma ReferenceBindsSecret()
    ensures BindsSecret(ReferenceJwt())
  {
    forall p: Payload, s: string, s': string, ttl: nat, iat: nat, now: nat | s' != s
      ensures Verify(Sign(p, s, ttl, iat), s', now) == None
    {
      SignDecodes(p, s, ttl, iat, now, s');
    }
  }

  lemma ReferenceHashLaws()
    ensures HashLaws(ReferenceBcrypt())
  {
    forall password: string, salt: string ensures Compare(password, Hash(password, salt)) {
      DecodeEncodeString(salt, password);
    }
  }

  /** The reference codec and hash obey every law the proofs assume, so the
      laws are consistent. */
  lemma ReferenceIsLawful(secretEnv: Option<string>)
    ensures Lawful(Runtime(ReferenceJwt(), ReferenceBcrypt(), secretEnv))
  {
    ReferenceSignsCompact();
    ReferenceRejectsEmpty();
    ReferenceRoundTrips();
    ReferenceBindsSecret();
    ReferenceHashLaws();
  }
}

=== FILE: routes.dfy ===
/** The two routers as one table: each route's guard chain and handler,
    over a database holding both tables. */
module Routes {
  import opened Common
  import opened Crypto
  import opened Http
  import AuthMiddleware
  import AuthController
  import ProjectController
  import ProjectModel
  import UserModel

  /** The routes of the auth router, mounted at `/api/auth`. */
  datatype AuthRoute =
    | PostLogin           // POST /api/auth/login
    | PostRegister        // POST /api/auth/register
    | GetProfile          // GET  /api/auth/profile

  /** The routes of the project router, mounted at `/api`. */
  datatype ProjectRoute =
    | GetCheckAccess      // GET  /api/check-access
    | GetProjects         // GET  /api/projects
    | PostCreateProject   // POST /api/create-project
    | PostBlockProject    // POST /api/block-project
    | PostUnblockProject  // POST /api/unblock-project

  datatype Route = AuthRoutes(auth: AuthRoute) | ProjectRoutes(project: ProjectRoute)

  /** The middleware a route runs before its handler. */
  datatype Guard = Open | Authenticated | AdminOnly

  function GuardOf(route: Route): Guard {
    match route
    case AuthRoutes(GetProfile) => Authenticated
    case AuthRoutes(_) => Open
    case ProjectRoutes(GetCheckAccess) => Open
    case ProjectRoutes(_) => AdminOnly
  }

  /** Both tables of the database. */
  datatype Db = Db(projects: ProjectModel.ProjectTable, users: UserModel.UserTable)

  ghost predicate Valid(db: Db) {
    ProjectModel.Valid(db.projects) && UserModel.Valid(db.users)
  }

  /** What a handler sees of a request: the `Authorization` header, the
      query string and the JSON body. */
  datatype Request = Request(route: Route, authorization: Option<string>, query: Fields, body: Fields)

  /** The handler of an auth route, once its guards have let the request
      through with `user` as `req.user`. Login and profile write nothing. */
  function RunAuth(users: UserModel.UserTable, rt: Runtime, route: AuthRoute, user: Option<Claims>, body: Fields, salt: string, now: nat)
    : (r: Handled<UserModel.UserTable>)
    requires UserModel.Valid(users)
    ensures Coherent(r.response) && UserModel.Valid(r.store)
    ensures !route.PostRegister? || r.response.status != Created ==> r.store == users
  {
    match route
    case PostLogin => Handled(users, AuthController.Login(users, rt, body, now))
    case PostRegister => AuthController.Register(users, rt, body, salt, now)
    case GetProfile => Handled(users, AuthController.GetProfile(users, user))
  }

  /** The handler of a project route. `params` is what `checkAccess`
      destructures. Listing writes nothing, and no failed request writes. */
  function RunProjects(projects: ProjectModel.ProjectTable, route: ProjectRoute, params: Fields, body: Fields, now: nat)
    : (r: Handled<ProjectModel.ProjectTable>)
    requires ProjectModel.Valid(projects)
    ensures Coherent(r.response) && ProjectModel.Valid(r.store)
    ensures route.GetProjects? || (r.response.status != OK && r.response.status != Created) ==> r.store == projects
  {
    match route
    case GetCheckAccess => ProjectController.CheckAccess(projects, params, now)
    case GetProjects => Handled(projects, ProjectController.GetAllProjects(projects))
    case PostCreateProject => ProjectController.CreateProject(projects, body, now)
    case PostBlockProject => ProjectController.BlockProject(projects, body)
    case PostUnblockProject => ProjectController.UnblockProject(projects, body)
  }

  /** The handler of `route` over the whole database: auth handlers never
      touch the projects table and project handlers never touch the users
      table. */
  function Run(db: Db, rt: Runtime, route: Route, user: Option<Claims>, params: Fields, body: Fields, salt: string, now: nat)
    : (r: Handled<Db>)
    requires Valid(db)
    ensures Coherent(r.response) && Valid(r.store)
    ensures route.AuthRoutes? ==> r.store.projects == db.projects
    ensures route.ProjectRoutes? ==> r.store.users == db.users
    ensures route in {AuthRoutes(PostLogin), AuthRoutes(GetProfile), ProjectRoutes(GetProjects)} ==> r.store == db
    ensures r.response.status != OK && r.response.status != Created ==> r.store == db
  {
    match route
    case AuthRoutes(a) =>
      var h := RunAuth(db.users, rt, a, user, body, salt, now);
      Handled(db.(users := h.store), h.response)
    case ProjectRoutes(p) =>
      var h := RunProjects(db.projects, p, params, body, now);
      Handled(db.(projects := h.store), h.response)
  }

  /** One request through its route's guard chain and handler. An open
      route goes straight to its handler; a guarded one reaches it with the
      decoded user once every guard passes. A guard that halts answers in
      its place and nothing is written; an admin route needs a valid token
      whose role is exactly `"admin"`. */
  function Handle(db: Db, rt: Runtime, req: Request, params: Fields, salt: string, now: nat): (r: Handled<Db>)
    requires Valid(db)
    ensures Coherent(r.response) && Valid(r.store)
    ensures GuardOf(req.route) == Open ==> r == Run(db, rt, req.route, None, params, req.body, salt, now)
    ensures GuardOf(req.route) == Authenticated && AuthMiddleware.Authenticate(rt, req.authorization, now).Next? ==>
              r == Run(db, rt, req.route, Some(AuthMiddleware.Authenticate(rt, req.authorization, now).user),
                       params, req.body, salt, now)
    ensures GuardOf(req.route) == AdminOnly && AuthMiddleware.Authenticate(rt, req.authorization, now).Next?
            && AuthMiddleware.Authenticate(rt, req.authorization, now).user.payload.role == AuthMiddleware.AdminRole ==>
              r == Run(db, rt, req.route, Some(AuthMiddleware.Authenticate(rt, req.authorization, now).user),
                       params, req.body, salt, now)
    ensures GuardOf(req.route) != Open && AuthMiddleware.Authenticate(rt, req.authorization, now).Halt? ==>
              r == Handled(db, AuthMiddleware.Authenticate(rt, req.authorization, now).response)
    ensures GuardOf(req.route) == AdminOnly && AuthMiddleware.Authenticate(rt, req.authorization, now).Next?
            && AuthMiddleware.Authenticate(rt, req.authorization, now).user.payload.role != AuthMiddleware.AdminRole ==>
              r == Handled(db, Fail(Forbidden, AuthMiddleware.AdminRequiredMessage))
    ensures GuardOf(req.route) == AdminOnly && r.response.status != Unauthorized && r.response.status != Forbidden ==>
              AuthMiddleware.Authenticate(rt, req.authorization, now).Next?
              && AuthMiddleware.Authenticate(rt, req.authorization, now).user.payload.role == AuthMiddleware.AdminRole
  {
    match GuardOf(req.route)
    case Open => Run(db, rt, req.route, None, params, req.body, salt, now)
    case Authenticated =>
      (match AuthMiddleware.Authenticate(rt, req.authorization, now)
       case Halt(response) => Handled(db, response)
       case Next(user) => Run(db, rt, req.route, Some(user), params, req.body, salt, now))
    case AdminOnly =>
      match AuthMiddleware.Authenticate(rt, req.authorization, now)
      case Halt(response) => Handled(db, response)
      case Next(user) =>
        match AuthMiddleware.RequireAdmin(Some(user))
        case Halt(response) => Handled(db, response)
        case Next(admin) => Run(db, rt, req.route, Some(admin), params, req.body, salt, now)
  }

  /** The server as written: `checkAccess` destructures `req.params`, which
      is empty on `/check-access` because the path declares no parameters. */
  function Dispatch(db: Db, rt: Runtime, req: Request, salt: string, now: nat): (r: Handled<Db>)
    requires Valid(db)
    ensures Coherent(r.response) && Valid(r.store)
    ensures req.route == ProjectRoutes(GetCheckAccess) ==> r == Handled(db, Fail(BadRequest, ProjectController.MissingIdMessage))
    ensures req.route != ProjectRoutes(GetCheckAccess) ==> r == DispatchIntended(db, rt, req, salt, now)
  {
    Handle(db, rt, req, map[], salt, now)
  }

  /** The server as the route table and the clients intend it: `checkAccess`
      reads the query string. */
  function DispatchIntended(db: Db, rt: Runtime, req: Request, salt: string, now: nat): (r: Handled<Db>)
    requires Valid(db)
    ensures Coherent(r.response) && Valid(r.store)
    ensures req.route == ProjectRoutes(GetCheckAccess) && Truthy(Field(req.query, "projectId")) && "name" in req.query ==>
              && r.response.status == OK
              && r.response.body.Access?
              && (r.response.body.allowed
                  <==> ProjectController.StatusIs(r.store.projects, req.query["projectId"], ProjectModel.Allowed))
  {
    Handle(db, rt, req, req.query, salt, now)
  }

  /** As written, every access check is refused as if `projectId` were
      missing, even when the query string carries it. */
  lemma CheckAccessAlwaysRejected(db: Db, rt: Runtime, projectId: string, name: string, salt: string, now: nat)
    requires Valid(db) && projectId != ""
    ensures var req := Request(ProjectRoutes(GetCheckAccess), None, ProjectController.AccessQuery(projectId, name), map[]);
            Dispatch(db, rt, req, salt, now).response == Fail(BadRequest, ProjectController.MissingIdMessage)
  {
  }

  /** Read from the query string, the first check of a new project
      registers it as allowed and grants access. */
  lemma FirstCheckGrantsWhenReadFromQuery(db: Db, rt: Runtime, projectId: string, name: string, salt: string, now: nat)
    requires Valid(db) && projectId != "" && ProjectModel.Unregistered(db.projects, projectId)
    ensures var req := Request(ProjectRoutes(GetCheckAccess), None, ProjectController.AccessQuery(projectId, name), map[]);
            var r := DispatchIntended(db, rt, req, salt, now);
            && r.response == Response(OK, Access(true, ProjectController.GrantedMessage))
            && r.store.users == db.users
            && r.store.projects.rows
               == db.projects.rows[db.projects.nextId := ProjectModel.Project(db.projects.nextId, projectId, name, ProjectModel.Allowed, now)]
  {
    ProjectController.FirstCheckRegistersAllowed(db.projects, projectId, name, now);
  }

  /** A request whose token authenticates as an admin reaches the handler
      of any admin route with that user. */
  lemma AdminPasses(db: Db, rt: Runtime, req: Request, params: Fields, salt: string, now: nat, user: Claims)
    requires Valid(db) && GuardOf(req.route) == AdminOnly
    requires AuthMiddleware.Authenticate(rt, req.authorization, now) == AuthMiddleware.Next(user)
    requires user.payload.role == AuthMiddleware.AdminRole
    ensures Handle(db, rt, req, params, salt, now) == Run(db, rt, req.route, Some(user), params, req.body, salt, now)
  {
  }

  /** A request whose token verifies reaches `getProfile` with the decoded
      claims. */
  lemma AuthenticatedPasses(db: Db, rt: Runtime, req: Request, params: Fields, salt: string, now: nat, user: Claims)
    requires Valid(db) && req.route == AuthRoutes(GetProfile)
    requires AuthMiddleware.Authenticate(rt, req.authorization, now) == AuthMiddleware.Next(user)
    ensures Handle(db, rt, req, params, salt, now)
            == Handled(db, AuthController.GetProfile(db.users, Some(user)))
  {
  }

  const AdminEmail := "a@x.com"
  const AdminPassword := "pw123"

  /** Registering an admin on a database where the email is free succeeds,
      and the token it returns authenticates as that admin until it expires. */
  lemma AdminRegistration(db: Db, rt: Runtime, salt: string, t0: nat, now: nat)
    requires Valid(db) && Lawful(rt) && UserModel.Unregistered(db.users, AdminEmail)
    requires t0 <= now < t0 + ExpiresIn
    ensures var reg := Dispatch(db, rt, Request(AuthRoutes(PostRegister), None, map[],
                                  map["email" := AdminEmail, "password" := AdminPassword, "role" := "admin"]), salt, t0);
            && reg.response.status == Created
            && reg.response.body.Session?
            && reg.store.projects == db.projects
            && var gate := AuthMiddleware.Authenticate(rt, Some(AuthMiddleware.BearerHeader(reg.response.body.token)), now);
            && gate.Next?
            && gate.user.payload.role == AuthMiddleware.AdminRole
  {
    var body := map["email" := AdminEmail, "password" := AdminPassword, "role" := "admin"];
    assert AuthController.HasCredentials(body);
    assert body["email"] == AdminEmail;
    assert Field(body, "role") == Some("admin");
    AuthController.RegisteredTokenAuthenticates(db.users, rt, body, salt, t0, now);
  }

  /** The body naming one project. */
  function ProjectBody(projectId: string): Fields {
    map["project_id" := projectId]
  }

  /** With an admin's header, listing succeeds; blocking an unknown project
      is 404; creating it is 201; blocking it then succeeds; and the public
      access check, read from the query string, denies it. */
  lemma AdminManagesProject(db: Db, rt: Runtime, auth: Option<string>, user: Claims, projectId: string, name: string,
                            salt: string, now: nat)
    requires Valid(db) && projectId != "" && name != "" && ProjectModel.Unregistered(db.projects, projectId)
    requires AuthMiddleware.Authenticate(rt, auth, now) == AuthMiddleware.Next(user)
    requires user.payload.role == AuthMiddleware.AdminRole
    ensures var list := DispatchIntended(db, rt, Request(ProjectRoutes(GetProjects), auth, map[], map[]), salt, now);
            var miss := DispatchIntended(list.store, rt, Request(ProjectRoutes(PostBlockProject), auth, map[], ProjectBody(projectId)), salt, now);
            var made := DispatchIntended(miss.store, rt, Request(ProjectRoutes(PostCreateProject), auth, map[],
                                         ProjectBody(projectId)["name" := name]), salt, now);
            var blocked := DispatchIntended(made.store, rt, Request(ProjectRoutes(PostBlockProject), auth, map[], ProjectBody(projectId)), salt, now);
            var check := DispatchIntended(blocked.store, rt, Request(ProjectRoutes(GetCheckAccess), None, map["projectId" := projectId], map[]), salt, now);
            && list.response.status == OK && list.response.body.ProjectList?
            && miss.response == Fail(NotFound, ProjectController.NotFoundMessage)
            && made.response.status == Created
            && blocked.response == Response(OK, Done(ProjectController.BlockedMessage))
            && check.response == Response(OK, Access(false, ProjectController.DeniedMessage))
  {
    var body := ProjectBody(projectId);
    var create := body["name" := name];
    assert Field(body, "project_id") == Some(projectId);
    assert Field(create, "project_id") == Some(projectId) && Field(create, "name") == Some(name);

    var list := DispatchIntended(db, rt, Request(ProjectRoutes(GetProjects), auth, map[], map[]), salt, now);
    AdminPasses(db, rt, Request(ProjectRoutes(GetProjects), auth, map[], map[]), map[], salt, now, user);
    assert list.store == db;

    var missReq := Request(ProjectRoutes(PostBlockProject), auth, map[], body);
    var miss := DispatchIntended(list.store, rt, missReq, salt, now);
    AdminPasses(db, rt, missReq, map[], salt, now, user);
    assert miss.store == db;

    var madeReq := Request(ProjectRoutes(PostCreateProject), auth, map[], create);
    var made := DispatchIntended(miss.store, rt, madeReq, salt, now);
    AdminPasses(db, rt, madeReq, map[], salt, now, user);
    assert !ProjectModel.Unregistered(made.store.projects, projectId) by {
      assert made.store.projects.rows[db.projects.nextId].projectId == projectId;
    }

    var blockedReq := Request(ProjectRoutes(PostBlockProject), auth, map[], body);
    AdminPasses(made.store, rt, blockedReq, map[], salt, now, user);
    ProjectController.BlockThenCheckDenies(made.store.projects, projectId, map["projectId" := projectId], now);
  }

  /** The admin session end to end: register an admin, then manage a
      project with the returned token within its 24 hours. The final check
      denies the blocked project when read from the query string; as
      written it answers 400 instead. */
  lemma AdminScenario(db: Db, rt: Runtime, salt: string, t0: nat, now: nat)
    requires Valid(db) && Lawful(rt)
    requires UserModel.Unregistered(db.users, AdminEmail) && ProjectModel.Unregistered(db.projects, "p1")
    requires t0 <= now < t0 + ExpiresIn
    ensures var reg := DispatchIntended(db, rt, Request(AuthRoutes(PostRegister), None, map[],
                                          map["email" := AdminEmail, "password" := AdminPassword, "role" := "admin"]), salt, t0);
            var auth := Some(AuthMiddleware.BearerHeader(reg.response.body.token));
            var list := DispatchIntended(reg.store, rt, Request(ProjectRoutes(GetProjects), auth, map[], map[]), salt, now);
            var miss := DispatchIntended(list.store, rt, Request(ProjectRoutes(PostBlockProject), auth, map[], ProjectBody("p1")), salt, now);
            var made := DispatchIntended(miss.store, rt, Request(ProjectRoutes(PostCreateProject), auth, map[],
                                         ProjectBody("p1")["name" := "P1"]), salt, now);
            var blocked := DispatchIntended(made.store, rt, Request(ProjectRoutes(PostBlockProject), auth, map[], ProjectBody("p1")), salt, now);
            var check := DispatchIntended(blocked.store, rt, Request(ProjectRoutes(GetCheckAccess), None, map["projectId" := "p1"], map[]), salt, now);
            && reg.response.status == Created
            && list.response.status == OK && list.response.body.ProjectList?
            && miss.response == Fail(NotFound, ProjectController.NotFoundMessage)
            && made.response.status == Created
            && blocked.response == Response(OK, Done(ProjectController.BlockedMessage))
            && check.response == Response(OK, Access(false, ProjectController.DeniedMessage))
            && Dispatch(blocked.store, rt, Request(ProjectRoutes(GetCheckAccess), None, map["projectId" := "p1"], map[]), salt, now).response
               == Fail(BadRequest, ProjectController.MissingIdMessage)
  {
    var regReq := Request(AuthRoutes(PostRegister), None, map[],
                          map["email" := AdminEmail, "password" := AdminPassword, "role" := "admin"]);
    AdminRegistration(db, rt, salt, t0, now);
    var reg := DispatchIntended(db, rt, regReq, salt, t0);
    assert reg == Dispatch(db, rt, regReq, salt, t0);
    var auth := Some(AuthMiddleware.BearerHeader(reg.response.body.token));
    var gate := AuthMiddleware.Authenticate(rt, auth, now);
    AdminManagesProject(reg.store, rt, auth, gate.user, "p1", "P1", salt, now);
  }
}

=== FILE: tables.dfy ===
/** What the two models share about a MySQL table with an AUTO_INCREMENT
    primary key: rows keyed by id, a scan in key order, a first-match lookup,
    ORDER BY ... DESC, and the outcomes of INSERT and UPDATE/DELETE. */
module Tables {
  import opened Common

  /** Why a write fails: a UNIQUE index already holds the value, or a
      required value is missing (the driver refuses an `undefined` bind value
      before any SQL is sent, and a NOT NULL column would refuse a NULL). The
      handlers turn either into 500 with nothing written. */
  datatype StoreError = DuplicateKey | MissingValue

  /** A store call that either completes or throws. */
  datatype Result<T> = Ok(value: T) | Err(error: StoreError)

  /** An INSERT: the new table and `insertId`. */
  datatype Inserted<T> = Inserted(table: T, id: nat)

  /** An UPDATE or DELETE: the new table and whether `affectedRows > 0`. */
  datatype Updated<T> = Updated(table: T, affected: bool)

  /** Every primary key is a positive id below `nextId`, and each row records
      its own key: AUTO_INCREMENT starts at 1 and only grows. */
  ghost predicate KeyedBelow<R>(rows: map<nat, R>, nextId: nat, id: R -> nat) {
    && 0 < nextId
    && forall k :: k in rows ==> 0 < k < nextId && id(rows[k]) == k
  }

  /** The keys of `m` below `bound`, ascending: the order of a primary-key scan. */
  function KeysBelow<V>(m: map<nat, V>, bound: nat): (ks: seq<nat>)
    ensures forall i :: 0 <= i < |ks| ==> ks[i] in m && ks[i] < bound
    ensures forall k :: k in m && k < bound ==> k in ks
    ensures forall i, j :: 0 <= i < j < |ks| ==> ks[i] < ks[j]
    decreases bound
  {
    if bound == 0 then []
    else if bound - 1 in m then KeysBelow(m, bound - 1) + [bound - 1]
    else KeysBelow(m, bound - 1)
  }

  /** `SELECT *` without ORDER BY, read as a primary-key scan: every row of a
      table whose rows record their own key, each once, in ascending key order. */
  function Scan<V>(m: map<nat, V>, nextId: nat, id: V -> nat): (r: seq<V>)
    requires KeyedBelow(m, nextId, id)
    ensures forall i :: 0 <= i < |r| ==> id(r[i]) in m && m[id(r[i])] == r[i]
    ensures forall k :: k in m ==> m[k] in r
    ensures forall i, j :: 0 <= i < j < |r| ==> id(r[i]) < id(r[j])
  {
    var ks := KeysBelow(m, nextId);
    var r := seq(|ks|, i requires 0 <= i < |ks| => m[ks[i]]);
    assert forall k :: k in m ==> m[k] in r by {
      forall k | k in m ensures m[k] in r {
        var i :| 0 <= i < |ks| && ks[i] == k;
        assert r[i] == m[k];
      }
    }
    r
  }

  /** The first element of `s` satisfying `p`: `rows[0]` of a filtered SELECT. */
  function First<V>(s: seq<V>, p: V -> bool): (r: Option<V>)
    ensures r.Some? ==> r.value in s && p(r.value)
    ensures r.None? ==> forall i :: 0 <= i < |s| ==> !p(s[i])
  {
    if |s| == 0 then None
    else if p(s[0]) then Some(s[0])
    else First(s[1..], p)
  }

  /** Largest key first: the order `ORDER BY key DESC` promises. */
  ghost predicate SortedDesc<V>(s: seq<V>, key: V -> int) {
    forall i, j :: 0 <= i < j < |s| ==> key(s[i]) >= key(s[j])
  }

  /** A key no smaller than the head's keeps a descending sequence descending. */
  lemma PrependDesc<V>(a: V, t: seq<V>, key: V -> int)
    requires SortedDesc(t, key)
    requires |t| > 0 ==> key(a) >= key(t[0])
    ensures SortedDesc([a] + t, key)
  {
    var s := [a] + t;
    forall i, j | 0 <= i < j < |s| ensures key(s[i]) >= key(s[j]) {
      if i == 0 {
        assert s[j] == t[j - 1];
        assert key(t[0]) >= key(t[j - 1]) || j == 1;
      } else {
        assert s[i] == t[i - 1] && s[j] == t[j - 1];
      }
    }
  }

  /** Put `x` into the descending sequence `s` before the first smaller key. */
  function InsertDesc<V>(x: V, s: seq<V>, key: V -> int): (r: seq<V>)
    requires SortedDesc(s, key)
    ensures SortedDesc(r, key)
    ensures multiset(r) == multiset(s) + multiset{x}
    ensures |r| > 0 && (r[0] == x || (|s| > 0 && r[0] == s[0]))
  {
    if |s| == 0 then [x]
    else if key(x) >= key(s[0]) then
      PrependDesc(x, s, key);
      [x] + s
    else
      var tail := s[1..];
      assert s == [s[0]] + tail;
      assert SortedDesc(tail, key);
      var rest := InsertDesc(x, tail, key);
      assert |tail| > 0 ==> key(s[0]) >= key(tail[0]);
      PrependDesc(s[0], rest, key);
      [s[0]] + rest
  }

  /** Insertion sort, largest key first: a permutation of `s` in descending order. */
  function SortDesc<V>(s: seq<V>, key: V -> int): (r: seq<V>)
    ensures SortedDesc(r, key)
    ensures multiset(r) == multiset(s)
  {
    if |s| == 0 then []
    else
      assert s == [s[0]] + s[1..];
      InsertDesc(s[0], SortDesc(s[1..], key), key)
  }
}

=== FILE: user_model.dfy ===
/** The `users` table and the functions of the user model over it. Passwords
    are hashed on the way in and only ever compared through `bcrypt.compare`. */
module UserModel {
  import opened Common
  import opened Tables
  import Crypto

  /** One row; `password` holds what `bcrypt.hash` returned for the password. `role`
      is kept as the string the handler passed. */
  datatype User = User(id: nat, email: string, password: string, role: string, createdAt: nat)

  /** A user without the password column: `Omit<User, 'password'>`. */
  datatype PublicUser = PublicUser(id: nat, email: string, role: string, createdAt: nat)

  /** The rows keyed by the AUTO_INCREMENT `id`, and the next id to hand out. */
  datatype UserTable = UserTable(rows: map<nat, User>, nextId: nat)

  /** The fields `createUser` receives, password in plaintext. */
  datatype NewUser = NewUser(email: string, password: string, role: string)

  function IdOf(u: User): nat { u.id }

  /** The table's constraints: AUTO_INCREMENT ids and a UNIQUE `email`. */
  ghost predicate Valid(t: UserTable) {
    && KeyedBelow(t.rows, t.nextId, IdOf)
    && forall a, b :: a in t.rows && b in t.rows && t.rows[a].email == t.rows[b].email ==> a == b
  }

  /** No row carries `email`. */
  ghost predicate Unregistered(t: UserTable, email: string) {
    forall k :: k in t.rows ==> t.rows[k].email != email
  }

  /** The empty table a fresh database starts with. */
  function Empty(): (t: UserTable)
    ensures Valid(t) && t.rows == map[]
  {
    UserTable(map[], 1)
  }

  /** `getUserByEmail`: the row whose email equals the argument exactly, or
      null; the UNIQUE index makes it the only one. */
  function GetUserByEmail(t: UserTable, email: string): (r: Option<User>)
    requires Valid(t)
    ensures r.None? <==> Unregistered(t, email)
    ensures r.Some? ==> r.value.email == email && r.value.id in t.rows && t.rows[r.value.id] == r.value
    ensures r.Some? ==> forall k :: k in t.rows && t.rows[k].email == email ==> k == r.value.id
  {
    var scan := Scan(t.rows, t.nextId, IdOf);
    var r := First(scan, (u: User) => u.email == email);
    assert r.None? ==> Unregistered(t, email) by {
      if r.None? {
        forall k | k in t.rows ensures t.rows[k].email != email {
          var i :| 0 <= i < |scan| && scan[i] == t.rows[k];
        }
      }
    }
    r
  }

  /** `getUserById`: the row with that primary key, or null. */
  function GetUserById(t: UserTable, id: nat): (r: Option<User>)
    requires Valid(t)
    ensures r.Some? <==> id in t.rows
    ensures r.Some? ==> r.value == t.rows[id] && r.value.id == id
  {
    if id in t.rows then Some(t.rows[id]) else None
  }

  /** `createUser`: hashes the password, then INSERTs email, hash and role
      with `created_at = now`. An email already present is refused by the
      UNIQUE index; otherwise exactly one row appears, under a fresh id. */
  function CreateUser(t: UserTable, u: NewUser, bcrypt: Crypto.Bcrypt, salt: string, now: nat)
    : (r: Result<Inserted<UserTable>>)
    requires Valid(t)
    ensures r.Err? <==> !Unregistered(t, u.email)
    ensures r.Ok? ==> Valid(r.value.table)
    ensures r.Ok? ==> r.value.id > 0 && r.value.id !in t.rows
    ensures r.Ok? ==> r.value.table.rows.Keys == t.rows.Keys + {r.value.id}
    ensures r.Ok? ==> forall k :: k in t.rows ==> r.value.table.rows[k] == t.rows[k]
    ensures r.Ok? ==> r.value.table.rows[r.value.id]
                      == User(r.value.id, u.email, bcrypt.hash(u.password, salt), u.role, now)
  {
    var hashed := bcrypt.hash(u.password, salt);
    if GetUserByEmail(t, u.email).Some? then Err(DuplicateKey)
    else
      var id := t.nextId;
      Ok(Inserted(UserTable(t.rows[id := User(id, u.email, hashed, u.role, now)], id + 1), id))
  }

  /** `validateUser`: the user with that email if the password matches the
      stored hash, null if there is no such user or it does not match. */
  function ValidateUser(t: UserTable, bcrypt: Crypto.Bcrypt, email: string, password: string)
    : (r: Option<User>)
    requires Valid(t)
    ensures Unregistered(t, email) ==> r.None?
    ensures r.Some? ==> r.value.id in t.rows && t.rows[r.value.id] == r.value && r.value.email == email
    ensures r.Some? ==> bcrypt.compare(password, r.value.password)
    ensures !Unregistered(t, email) && r.None? ==>
              forall k :: k in t.rows && t.rows[k].email == email ==> !bcrypt.compare(password, t.rows[k].password)
  {
    match GetUserByEmail(t, email)
    case None => None
    case Some(user) => if bcrypt.compare(password, user.password) then Some(user) else None
  }

  /** A user created with a password validates with that same password. */
  lemma CreatedUserValidates(t: UserTable, u: NewUser, bcrypt: Crypto.Bcrypt, salt: string, now: nat)
    requires Valid(t) && Crypto.HashLaws(bcrypt)
    requires CreateUser(t, u, bcrypt, salt, now).Ok?
    ensures var ins := CreateUser(t, u, bcrypt, salt, now).value;
            ValidateUser(ins.table, bcrypt, u.email, u.password) == Some(ins.table.rows[ins.id])
  {
    var ins := CreateUser(t, u, bcrypt, salt, now).value;
    assert ins.table.rows[ins.id].email == u.email;
    assert bcrypt.compare(u.password, bcrypt.hash(u.password, salt));
  }

  /** The row without its password. */
  function Public(u: User): PublicUser {
    PublicUser(u.id, u.email, u.role, u.createdAt)
  }

  /** `getAllUsers`: every user once, projected to id, email, role and
      `created_at`; the password column is never read. */
  function GetAllUsers(t: UserTable): (r: seq<PublicUser>)
    requires Valid(t)
    ensures forall k :: k in t.rows ==> Public(t.rows[k]) in r
    ensures forall i :: 0 <= i < |r| ==> r[i].id in t.rows && r[i] == Public(t.rows[r[i].id])
    ensures forall i, j :: 0 <= i < j < |r| ==> r[i].id != r[j].id
  {
    var scan := Scan(t.rows, t.nextId, IdOf);
    var r := seq(|scan|, i requires 0 <= i < |scan| => Public(scan[i]));
    ProjectionIsFaithful(t, scan, r);
    r
  }

  /** Projecting a scan row by row keeps every user, each once. */
  lemma ProjectionIsFaithful(t: UserTable, scan: seq<User>, r: seq<PublicUser>)
    requires Valid(t)
    requires forall i :: 0 <= i < |scan| ==> scan[i].id in t.rows && t.rows[scan[i].id] == scan[i]
    requires forall k :: k in t.rows ==> t.rows[k] in scan
    requires forall i, j :: 0 <= i < j < |scan| ==> scan[i].id < scan[j].id
    requires |r| == |scan| && forall i :: 0 <= i < |r| ==> r[i] == Public(scan[i])
    ensures forall k :: k in t.rows ==> Public(t.rows[k]) in r
    ensures forall i :: 0 <= i < |r| ==> r[i].id in t.rows && r[i] == Public(t.rows[r[i].id])
    ensures forall i, j :: 0 <= i < j < |r| ==> r[i].id != r[j].id
  {
    forall k | k in t.rows ensures Public(t.rows[k]) in r {
      var i :| 0 <= i < |scan| && scan[i] == t.rows[k];
      assert r[i] == Public(t.rows[k]);
    }
    forall i, j | 0 <= i < j < |r| ensures r[i].id != r[j].id {
      assert r[i].id == scan[i].id && r[j].id == scan[j].id;
    }
  }

  /** `updateUserPassword`: replaces that user's stored hash with the hash of
      the new password, touches nothing else, and reports whether the user
      exists. */
  function UpdateUserPassword(t: UserTable, bcrypt: Crypto.Bcrypt, id: nat, newPassword: string, salt: string)
    : (r: Updated<UserTable>)
    requires Valid(t)
    ensures Valid(r.table) && r.table.nextId == t.nextId
    ensures r.affected <==> id in t.rows
    ensures r.table.rows.Keys == t.rows.Keys
    ensures forall k :: k in t.rows && k != id ==> r.table.rows[k] == t.rows[k]
    ensures id in t.rows ==> r.table.rows[id] == t.rows[id].(password := bcrypt.hash(newPassword, salt))
  {
    var hashed := bcrypt.hash(newPassword, salt);
    if id in t.rows then
      var t' := t.(rows := t.rows[id := t.rows[id].(password := hashed)]);
      assert forall k :: k in t'.rows ==> t'.rows[k].email == t.rows[k].email;
      Updated(t', true)
    else Updated(t, false)
  }
}
